=== FILE: README.md ===
# Ryu port-throughput mitigation controllers, modelled in Dafny

This project models the decision logic of a family of Ryu OpenFlow 1.3
controller applications. Each one polls every switch for port statistics,
computes the receive/transmit throughput of each port between two replies,
and keeps a watch list of ports above a throughput threshold (300000).
Three of the variants block a port with a drop rule once it stays high and
lift the block after a time or a sweep count. `tiprego_nojson.py` never gets
that far (see below). The variants are near-copies of one another. Each is
modelled as it is written:

- `controller_withmitigation.py`: time-based blocks lifted after strictly
  more than 30 seconds. Only ports listed in `host_info` (host-facing ports)
  may be watched or blocked. Modules `TimedMonitor` with the gate `HostPorts`,
  and `ControllerWithMitigation`.
- `prova.py`: the same monitor with no gate (`TimedMonitor` with `AnyPort`,
  module `Prova`). It also counts packet-ins per source MAC and ingress port,
  floods every packet, and picks the busiest source of a port (`SrcTraffic`).
- `tiprego_nojson.py`: the same monitor, but `host_info` is filled by host
  discovery and keyed by MAC. The gate tests a `(dpid, port)` tuple against
  those keys, so it never admits a port. Its block branch calls a
  `_block_port` the class does not define (`TipregoNoJson`). Its packet-in
  handler is the MAC-learning switch (`LearningSwitch`), which is also the
  handler of `controller_withmitigation.py` and `controller1.py`.
- `controller1.py`: strike counts instead of a plain list. Only switch 3
  collects strikes. A port is blocked when it has more than one strike and
  beats its share `1.1 * threshold / num_active_ports`. A separate sweep
  lifts a block after five sweeps (`Controller1`).

Shared pieces:

- `Wrappers`: `Option` and `Result`.
- `Lists`: Python's `list.remove`, which removes the first occurrence.
- `OpenFlow`: the reserved numbers of the OpenFlow 1.3 switch
  specification (`OFPP_MAX`, `OFPP_FLOOD`, `OFP_NO_BUFFER`) and an abstract
  log of the messages sent to switches.
- `Sampler`: `_update_port_stats` and the set of active ports.

The wall clock is explicit. A reply handler takes one time reading per body
entry (`clock`), and one expiry sweep takes a single time reading.
Throughput is an exact `real`. The constants 300000, `0.02 * 300000` and
`300000 + 300000 * 0.1` are exact in IEEE double arithmetic too.

The model keeps these details of the code as written:

- The code has no guard against a zero or negative time difference.
- It does not re-baseline when a counter goes backwards, so rates can be
  negative.
- It does not clamp `num_active_ports` at zero, so the count goes negative
  (`ControllerWithMitigation.NumActivePortsCanBeNegative`).
- A block is lifted when it is strictly more than 30 seconds old, not at
  30 seconds or later.

## Model

| member | source | states |
|---|---|---|
| Lists.RemoveFirst | controller_withmitigation.py:70 | `list.remove` drops the first occurrence of the element and keeps the other elements in their order: the result is the list cut around the first index holding it, so the multiset loses exactly one copy |
| OpenFlow.ZeroBufferIsNoBuffer | controller_withmitigation.py:219-225 | `add_flow` with buffer id 0 builds the same FlowMod as with no buffer id, because 0 is falsy |
| OpenFlow.BlockMessages | controller_withmitigation.py:69-86 | the drop rule has no output actions, matches exactly the packets entering the blocked port, and has a higher priority than forwarding flows; it is followed by a PacketOut with buffer id 0, no actions and no data |
| OpenFlow.UnblockMessage | controller_withmitigation.py:88-108 | the unblock is a non-strict delete on the same switch carrying the drop rule's match, so it removes exactly the flows, at any priority, all of whose packets enter the port |
| OpenFlow.UnblockDeletesPortFlows | controller_withmitigation.py:88-108 | lifting a block deletes the drop rule and every learned forwarding flow for that ingress port, and no learned flow for another ingress port |
| OpenFlow.DropShadowsForwarding | controller_withmitigation.py:76-81 | a drop rule outranks every learned forwarding flow for that ingress port and matches every packet such a flow matches |
| Sampler.SetDefault | controller_withmitigation.py:136 | the switch gets an empty table only when it had none; every other switch's table is unchanged |
| Sampler.Rate | controller_withmitigation.py:166-167 | the throughput times the elapsed time equals the counter delta; there is no sign guard |
| Sampler.Advance | controller_withmitigation.py:161-174 | a later reply overwrites counters and timestamp and stores rates whose product with the elapsed time is the rx and tx deltas |
| Sampler.Update | controller_withmitigation.py:151-174 | a new port gets a baseline with no rates; a known port is advanced; no other port's record changes; the key set grows by this port only |
| Sampler.UpdateNotAfter | controller_withmitigation.py:152 | sampling at `now` leaves no record newer than `now` |
| Sampler.ActivePorts | controller_withmitigation.py:179 | a port is active iff it has a record whose rx rate, counted as 0 for a baseline, exceeds the lower threshold |
| Sampler.BaselineNotActive | controller_withmitigation.py:177-179 | a port with only a baseline is never active |
| Sampler.ActivePortList | controller_withmitigation.py:179-180 | walking the ports in dictionary order lists each active port once, in that order, and nothing else, so its length is the size of the active set |
| TimedMonitor.MonitorPort | controller_withmitigation.py:176-200 | above the threshold: an admitted port in neither list is appended to the watch list; a watched admitted port is blocked at `now` and removed from the list, with the drop rule sent. Below the threshold a watched port leaves the list. At the threshold nothing changes. No other port moves, and blocks are only added |
| TimedMonitor.MonitorPortKeepsWatchInv | controller_withmitigation.py:183-200 | the watch list stays duplicate-free and disjoint from the blocked ports |
| TimedMonitor.PortStep | controller_withmitigation.py:138-149 | reserved ports (at or above `OFPP_MAX`) change nothing; any other entry stores the sample and its result is `MonitorPort` run on the stored state |
| TimedMonitor.ReplyFrom | controller_withmitigation.py:138-149 | handling the body entries in order never adds or removes a switch table and leaves the other switches' tables unchanged |
| TimedMonitor.Reply | controller_withmitigation.py:131-149 | after a reply the reporting switch has a table, and every other switch keeps its table unchanged |
| TimedMonitor.ReplyFromKeepsWatchInv | controller_withmitigation.py:138-149 | every entry of a reply keeps the watch list duplicate-free and disjoint from the blocks |
| TimedMonitor.ReplyKeepsWatchInv | controller_withmitigation.py:131-149 | a whole reply keeps that invariant |
| TimedMonitor.ReplyFromOnlyAddsBlocks | controller_withmitigation.py:192-195 | a reply never lifts or re-times a block |
| TimedMonitor.ReplyFromNeverTouchesUnadmitted | controller_withmitigation.py:184-192 | a port the gate rejects and in neither list stays in neither list, whatever its traffic |
| TimedMonitor.ReplyFromSkipsReserved | controller_withmitigation.py:141-143 | a body of reserved ports only leaves the state as it was and sends nothing |
| Sampler.RateAbove | controller_withmitigation.py:166 | a counter that grew by more than threshold times the elapsed time gives a rate above the threshold |
| TimedMonitor.HighSampleWatches | controller_withmitigation.py:183-189 | a fast sample of an admitted port in neither list appends it to the watch list and stores the sample |
| TimedMonitor.HighSampleBlocks | controller_withmitigation.py:192-195 | a fast sample of a watched, unblocked, admitted port blocks it at `now`, removes it from the list and sends the two block messages |
| TimedMonitor.TwoHighSamplesBlock | controller_withmitigation.py:183-195 | two consecutive fast samples: the first watches the port, the second blocks it at the second time |
| TimedMonitor.SweepExpired | controller_withmitigation.py:57-60 | the sweep lifts exactly the blocks strictly more than 30 seconds old, keeps the others with their times, and touches nothing else |
| TimedMonitor.BlockLifetime | controller_withmitigation.py:57-60 | a block survives a series of sweeps iff none of them came more than 30 seconds after it was taken, and it keeps its time |
| ControllerWithMitigation.PortStatsReply | controller_withmitigation.py:130-149 | the handler with threshold 300000 and the `host_info` gate keeps the watch-list invariant and only adds blocks |
| ControllerWithMitigation.TransitPortNeverWatched | controller_withmitigation.py:187-192 | a port absent from `host_info` is never watched or blocked |
| ControllerWithMitigation.SecondHighReplyBlocksHostPort | controller_withmitigation.py:183-195 | a host port is watched after its first fast reply and blocked by the second |
| ControllerWithMitigation.NumActivePortsCanBeNegative | controller_withmitigation.py:180 | blocks on another switch drive `num_active_ports` to -1 |
| Prova.PortStatsReply | prova.py:102-114 | the ungated handler keeps the watch-list invariant and only adds blocks |
| Prova.SecondHighReplyBlocks | prova.py:141-149 | any port in neither list is watched after one fast reply and blocked, with the drop messages, by the next |
| SrcTraffic.Bump | prova.py:180-181 | the source's count goes up by one and no other count changes; a new source is appended after the existing ones |
| SrcTraffic.BumpDistinct | prova.py:180 | bumping keeps each MAC listed once |
| SrcTraffic.HandlePacketIn | prova.py:169-198 | every packet is flooded once with its data; an Ethernet packet adds one to exactly its (ingress port, source) count, keeps that row's order with a new source appended, and leaves every other port's row untouched; a non-Ethernet packet changes no count |
| SrcTraffic.FirstMax | prova.py:162 | the index of the first entry with the largest count |
| SrcTraffic.HighTrafficSource | prova.py:156-167 | `None` iff the port has no counters; otherwise the earliest-inserted MAC whose count is maximal |
| SrcTraffic.Replay | prova.py:169-187 | a series of packet-ins keeps every row non-empty and duplicate-free |
| SrcTraffic.SeenPortHasBusiestSource | prova.py:158-167 | from empty counters, every port that has seen an Ethernet packet has a busiest source |
| LearningSwitch.HandlePacketIn | tiprego_nojson.py:272-318 | a packet without an Ethernet header raises. LLDP frames change nothing and send nothing. Otherwise the source is learned on the ingress port and only that entry changes. A known destination installs a priority-1 flow: with the buffer id when the packet is buffered, else followed by a PacketOut with the data. An unknown destination is flooded |
| LearningSwitch.LearnedHostIsForwarded | tiprego_nojson.py:296-311 | once host A is seen on port p, an unbuffered packet for A from another host is forwarded to p with a flow installed, not flooded |
| LearningSwitch.PacketReleased | tiprego_nojson.py:298-318 | a non-LLDP packet is released (by a PacketOut or a FlowMod naming its buffer) exactly when its destination is unknown or its buffer id is not 0 |
| LearningSwitch.BufferZeroNotReleased | tiprego_nojson.py:305-311 | any buffer-0 packet whose destination is known gets one FlowMod without a buffer and no PacketOut |
| TipregoNoJson.HostAdd | tiprego_nojson.py:129-135 | the host's MAC maps to its (dpid, port); other entries stay; MAC-only keys stay MAC-only |
| TipregoNoJson.MonitorPort | tiprego_nojson.py:220-244 | the call fails exactly when the port is fast, watched, unblocked and its tuple is a key of `host_info`; otherwise the lists change as in the gated monitor and the blocks never change |
| TipregoNoJson.PortStep | tiprego_nojson.py:182-193 | reserved ports succeed unchanged; any other entry stores the sample and its result is `MonitorPort` on the stored state |
| TipregoNoJson.ReplyFrom | tiprego_nojson.py:182-193 | a failing first entry ends the loop with its fault; only a non-reserved entry can fail; success keeps the key set and the other switches' tables |
| TipregoNoJson.PortStatsReply | tiprego_nojson.py:174-193 | a successful reply gives the reporting switch a table and leaves the other switches' tables unchanged |
| TipregoNoJson.MacKeyedNeverWatchesFrom | tiprego_nojson.py:231 | with only MAC keys in `host_info` and an empty watch list, every entry succeeds, the list stays empty and the blocks are unchanged |
| TipregoNoJson.MacKeyedNeverWatches | tiprego_nojson.py:134 | the same for a whole reply |
| TipregoNoJson.HostAddsMacKeyed | tiprego_nojson.py:129-135 | host discovery alone only ever produces MAC keys |
| Controller1.Strike | controller1.py:161-176 | no other port moves. The port is watched afterwards iff it was, or it is fast and not blocked. A new entry starts at 0. A fast sample adds a strike; a slow one removes one unless there are none; a sample at the threshold changes nothing. Counts stay non-negative |
| Controller1.FastSamplesStrike | controller1.py:165-170 | n fast strike updates (the bookkeeping that runs before the block check) for a port in neither list leave it watched with n-1 strikes; in the handler the block check can step in first, see `ThreeFastSamplesBlock` |
| Controller1.CountedStrikes | controller1.py:169-170 | n fast strike updates, before the block check, add n strikes to a watched port |
| Controller1.FinalThreshold | controller1.py:179 | with a positive count the share times the count is 1.1 times the threshold; otherwise it is 1 |
| Controller1.FinalThresholdShrinks | controller1.py:179 | more active ports give a strictly smaller share |
| Controller1.FinalThresholdAtMostLink | controller1.py:179 | with at least one active port the share is at most 1.1 times the threshold |
| Controller1.SlowSampleCanBlock | controller1.py:173-186 | a switch-3 port with three or more strikes is blocked by a sample below the threshold that beats its share |
| Controller1.AboveLinkBeatsShare | controller1.py:179-182 | a rate above 1.1 times the threshold beats the threshold and every share |
| Controller1.Escalate | controller1.py:181-186 | a block happens iff the port is watched, has more than one strike and beats the share. It then leaves the watch list, gets sweep count 0 unless already listed, and the drop messages are sent. Otherwise nothing changes |
| Controller1.ObservePort | controller1.py:147-193 | the active count uses the switch's samples from before this one and subtracts all blocks. The port is blocked iff, after the strike update, it is watched with more than one strike and its rate beats its share; without a block the lists are the strike update's, with one the port leaves the watch list. Outside switch 3 an unwatched port changes no list. No other port's entries or counts move and blocks are only added. The new sample is stored last |
| Controller1.ObservePortKeepsInv | controller1.py:157-193 | watch and block entries stay disjoint and on switch 3; strike counts stay non-negative; sweep counts stay between 0 and 5 |
| Controller1.SecondStrikeBlocks | controller1.py:165-186 | a fast sample that beats the share blocks a switch-3 port with one strike: the second fast sample after the one that first watched it |
| Controller1.FastRate | controller1.py:152-182 | a counter that grew faster than 1.1 times the threshold gives a rate above the threshold and above the port's share |
| Controller1.FastSample | controller1.py:161-186 | one sample faster than the whole link takes a port from no entry to 0 strikes and from 0 to 1 without a message, and blocks it from 1 |
| Controller1.ThreeFastSamplesBlock | controller1.py:161-193 | three consecutive samples faster than the whole link: the first two send nothing and the third blocks the port |
| Controller1.PortStep | controller1.py:132-193 | reserved ports change nothing; a port seen for the first time only gets its baseline; a known port is `ObservePort` |
| Controller1.ReplyFrom | controller1.py:132-193 | the loop over the body keeps the key set of the switch tables and the other switches' tables |
| Controller1.PortStatsReply | controller1.py:124-193 | after a reply the reporting switch has a table and every other switch keeps its table |
| Controller1.ReplyFromKeepsInv | controller1.py:132-193 | every entry of a reply keeps the invariant |
| Controller1.PortStatsReplyKeepsInv | controller1.py:124-193 | a whole reply keeps the invariant, so no port off switch 3 is ever watched or blocked |
| Controller1.LimitRateSweep | controller1.py:53-58 | a sweep lifts exactly the blocks with count above 4 and adds one to every other count |
| Controller1.LimitRate | controller1.py:48-61 | the sweep changes only the block list and keeps the invariant |
| Controller1.BlockLifetime | controller1.py:53-58 | a block with count c is still there after n sweeps iff n = 0 or c + n <= 5, with count c + n |
| Controller1.FreshBlockLastsFiveSweeps | controller1.py:53-58 | a new block survives five sweeps and the sixth lifts it |

## Left out

- Threads and `time.sleep`: the polling and mitigation loops are modelled as
  single iterations (`TimedMonitor.SweepExpired`, `Controller1.LimitRate`)
  that the caller sequences. Interleavings with the handlers are not modelled.
- `time.time()`: replaced by explicit time values. In the block branch of
  `_monitor_port` the code reads the clock a second time for the block time;
  the model uses the sample's reading for both.
- The reply handlers (`PortStatsReply`, `Reply`, `ReplyFrom` in every
  module): they require the clock readings of a reply to be strictly
  increasing and later than every stored timestamp of that switch. This is stronger than the code's only
  demand, a non-zero time difference, which the per-port members require
  exactly. A zero difference raises `ZeroDivisionError` and is not modelled.
- Floating point: rates are exact reals. Rounding of the division and of
  `final_threshold` is not modelled.
- OpenFlow message encoding, `send_msg`, `_request_stats` and
  `switch_features_handler`: messages are an abstract log of `Action`s.
- TimedMonitor.SweepExpired: the model compares every block of one sweep
  against a single time reading; the code calls `time.time()` once per
  blocked entry, so later entries of the same sweep see a slightly later
  time.
- The `datapaths` registry and `_state_change_handler`. A `KeyError` for an
  unregistered switch in `_block_port`/`_unblock_port` is not modelled.
- CSV export (`_stats_csv`), logging and `print`.
- `get_host_info`: it reads and `eval`s a JSON file, so `host_info` is a
  parameter (its set of keys).
- `update_topology` and the link handlers of `tiprego_nojson.py`: they only
  log.
- `topologytiprego.py` and `uff.py` are not part of this model.
- Iteration order of the sweeps: the sweeps lift blocks independently of
  one another, so their effect is a set (`unblocked`) rather than an ordered
  list of messages.
- tiprego_nojson.py as given does not parse: the decorator on line 162 is
  indented by two spaces inside a class whose members use four, which
  matches no enclosing level (an `IndentationError` at import). The model
  describes the class as if that decorator and the method under it were at
  class level, the second definition of `_state_change_handler`.
- TipregoNoJson: the class never initialises `port_stats`, `monitoring_list`,
  `blocked_ports` or the thresholds, so a real reply would raise at once.
  The model takes them as parameters, as if initialised. It also has no
  expiry sweep.
- TipregoNoJson.MonitorPort: the failure result drops the state; the code
  has already written `blocked_ports[k]` when `_block_port` raises. The
  module stops the reply at the first failure as the exception would.
- SrcTraffic: `pkt.get_protocol` parsing is abstracted to an optional
  header.

=== FILE: controller1.dfy ===
/** controller1.py: the strike-counting monitor. Only switch 3 collects
    strikes; a watched port is blocked once it has more than one strike and
    its rate beats its share `1.1 * threshold / num_active_ports` of the
    link; the mitigation thread lifts a block after it has been seen by five
    sweeps, counting sweeps rather than seconds. */
module Controller1 {
  import opened Wrappers
  import opened OpenFlow
  import opened Sampler

  /** The only switch whose ports collect strikes. */
  const WATCHED_SWITCH: int := 3
  /** A watched port is blocked only with more strikes than this. */
  const STRIKES_TO_BLOCK: int := 1
  /** A block whose sweep count exceeds this is lifted by the next sweep. */
  const SWEEPS_TO_UNBLOCK: int := 4

  /** `watchlist` and `blocklist`: interface to a counter. */
  type Counts = map<PortKey, int>

  /** The controller's attributes the core reads and writes. */
  datatype StrikeState = StrikeState(
    portStats: StatsTable,
    watchlist: Counts,
    blocklist: Counts,
    activePorts: set<int>,
    numActivePorts: int)

  /** What the handlers keep true from an empty start: a port is never both
      watched and blocked, only switch 3 ever has either, strike counts are
      non-negative and sweep counts stay between 0 and 5. */
  predicate Inv(s: StrikeState)
  {
    && (forall k :: k in s.watchlist ==> k !in s.blocklist && k.dpid == WATCHED_SWITCH && s.watchlist[k] >= 0)
    && (forall k :: k in s.blocklist ==> k.dpid == WATCHED_SWITCH && 0 <= s.blocklist[k] <= SWEEPS_TO_UNBLOCK + 1)
  }

  /** The strike bookkeeping done for switch 3: a fast port in neither list
      gets a watch entry with no strikes, a fast watched port gains a strike,
      a slow watched port loses one unless it has none. */
  function Strike(w: Counts, b: Counts, k: PortKey, rx: real, threshold: real): (r: Counts)
    // no other port's entry moves
    ensures forall j :: j != k ==> (j in r <==> j in w)
    ensures forall j :: j in r && j != k ==> r[j] == w[j]
    // the port is watched afterwards iff it was, or it is fast and not blocked
    ensures k in r <==> k in w || (rx > threshold && k !in b)
    ensures k in r && k !in w ==> r[k] == 0
    // a watched port's count moves by one step toward its verdict
    ensures k in w && rx > threshold ==> r[k] == w[k] + 1
    ensures k in w && rx < threshold ==> r[k] == if w[k] > 0 then w[k] - 1 else w[k]
    ensures k in w && rx == threshold ==> r[k] == w[k]
    ensures (forall j :: j in w ==> w[j] >= 0) ==> (forall j :: j in r ==> r[j] >= 0)
  {
    if rx > threshold then
      if k !in w && k !in b then w[k := 0]
      else if k in w then w[k := w[k] + 1]
      else w
    else if rx < threshold then
      if k in w && w[k] > 0 then w[k := w[k] - 1] else w
    else w
  }

  /** Repeated strikes with the same verdict. */
  function Strikes(w: Counts, b: Counts, k: PortKey, rx: real, threshold: real, n: nat): Counts
    decreases n
  {
    if n == 0 then w else Strikes(Strike(w, b, k, rx, threshold), b, k, rx, threshold, n - 1)
  }

  /** `n` fast strike updates in a row (the bookkeeping of
      controller1.py:165-170, which runs before the block check) for a port in
      neither list leave it watched with `n - 1` strikes. In the handler the
      block check can intervene first: see `ThreeFastSamplesBlock`. */
  lemma {:induction false} FastSamplesStrike(w: Counts, b: Counts, k: PortKey, rx: real, threshold: real, n: nat)
    requires n >= 1 && k !in w && k !in b && rx > threshold
    ensures var r := Strikes(w, b, k, rx, threshold, n);
            k in r && r[k] == n - 1
  {
    CountedStrikes(Strike(w, b, k, rx, threshold), b, k, rx, threshold, n - 1);
  }

  /** `n` fast strike updates add `n` strikes to a watched port. */
  lemma {:induction false} CountedStrikes(w: Counts, b: Counts, k: PortKey, rx: real, threshold: real, n: nat)
    requires k in w && rx > threshold
    ensures var r := Strikes(w, b, k, rx, threshold, n);
            k in r && r[k] == w[k] + n
    decreases n
  {
    if n > 0 {
      CountedStrikes(Strike(w, b, k, rx, threshold), b, k, rx, threshold, n - 1);
    }
  }

  /** `final_threshold`: the link share `(threshold + threshold * 0.1)` split
      over the active ports, or 1 when the count is not positive. */
  function FinalThreshold(threshold: real, num: int): (r: real)
    ensures num > 0 ==> r * num as real == threshold * 1.1
    ensures num <= 0 ==> r == 1.0
  {
    if num > 0 then (threshold + threshold * 0.1) / num as real else 1.0
  }

  /** More active ports give every port a strictly smaller share. */
  lemma FinalThresholdShrinks(threshold: real, n: int, m: int)
    requires threshold > 0.0 && 0 < n < m
    ensures FinalThreshold(threshold, m) < FinalThreshold(threshold, n)
  {
    var c := threshold * 1.1;
    var b := FinalThreshold(threshold, n);
    assert b * n as real == c && c > 0.0;
    assert b > 0.0;
    assert FinalThreshold(threshold, m) * m as real == c;
    assert c < b * m as real;
  }

  /** With at least one active port the share is at most the whole link. */
  lemma FinalThresholdAtMostLink(threshold: real, num: int)
    requires threshold >= 0.0 && num >= 1
    ensures FinalThreshold(threshold, num) <= threshold * 1.1
  {
    var r := FinalThreshold(threshold, num);
    assert r * num as real == threshold * 1.1;
    assert r >= 0.0;
    assert r <= r * num as real;
  }

  /** The block check after the strike update, with `_block_port`'s effect
      on the lists: a blocked port gets sweep count 0 if it had no entry and
      loses its watch entry. */
  function Escalate(s: StrikeState, k: PortKey, rx: real, final: real): (r: Step<StrikeState>)
    ensures r.state == s.(watchlist := r.state.watchlist, blocklist := r.state.blocklist)
    ensures r.actions != [] <==> k in s.watchlist && rx > final && s.watchlist[k] > STRIKES_TO_BLOCK
    ensures r.actions != [] ==>
              && r.actions == BlockMessages(k)
              && r.state.watchlist == s.watchlist - {k}
              && r.state.blocklist == (if k in s.blocklist then s.blocklist else s.blocklist[k := 0])
    ensures r.actions == [] ==> r.state == s
  {
    if k in s.watchlist && rx > final && s.watchlist[k] > STRIKES_TO_BLOCK then
      var b := if k in s.blocklist then s.blocklist else s.blocklist[k := 0];
      Step(s.(watchlist := s.watchlist - {k}, blocklist := b), BlockMessages(k))
    else Step(s, [])
  }

  /** The rx throughput of the sample taken at `now`. */
  function RxRate(prev: Sample, stat: PortStat, now: real): real
    requires now != prev.timestamp
  {
    Rate(stat.rxBytes, prev.rxBytes, now - prev.timestamp)
  }

  /** The strike update as the handler applies it: on switch 3 only. */
  function StrikeOn(s: StrikeState, dpid: int, k: PortKey, rx: real, threshold: real): Counts
  {
    if dpid == WATCHED_SWITCH then Strike(s.watchlist, s.blocklist, k, rx, threshold) else s.watchlist
  }

  /** The body of the loop for a port that already has a sample: the rate,
      the active-port count taken over the switch's samples as they were
      before this one (so the port counts with its previous rate), the
      strikes, the block check, and last the new sample. */
  function ObservePort(s: StrikeState, limits: Limits, dpid: int, stat: PortStat, now: real): (r: Step<StrikeState>)
    requires dpid in s.portStats && stat.portNo in s.portStats[dpid]
    requires s.portStats[dpid][stat.portNo].timestamp != now
    ensures r.state.portStats == s.portStats[dpid := Update(s.portStats[dpid], stat, now)]
    ensures r.state.activePorts == ActivePorts(s.portStats[dpid], limits.lower)
    ensures r.state.numActivePorts == |r.state.activePorts| - |s.blocklist|
    ensures r.actions == [] || r.actions == BlockMessages(PortKey(dpid, stat.portNo))
    // a block needs a watch entry with at least one strike before this sample
    ensures var k := PortKey(dpid, stat.portNo);
            r.actions != [] ==> k in s.watchlist && s.watchlist[k] >= STRIKES_TO_BLOCK
    ensures var k := PortKey(dpid, stat.portNo);
            r.actions != [] ==> k !in r.state.watchlist && k in r.state.blocklist
    // outside switch 3 an unwatched port changes nothing in the lists
    ensures var k := PortKey(dpid, stat.portNo);
            dpid != WATCHED_SWITCH && k !in s.watchlist ==>
              r.state.watchlist == s.watchlist && r.state.blocklist == s.blocklist && r.actions == []
    // every other port keeps its entries
    ensures forall j :: j != PortKey(dpid, stat.portNo) ==>
              (j in r.state.watchlist <==> j in s.watchlist) && (j in r.state.blocklist <==> j in s.blocklist)
    ensures forall j :: j in s.blocklist ==> j in r.state.blocklist && r.state.blocklist[j] == s.blocklist[j]
    ensures forall j :: j in s.watchlist && j != PortKey(dpid, stat.portNo) ==> r.state.watchlist[j] == s.watchlist[j]
    // the block check runs on the counts after the strike update, against
    // the share computed from the samples before this one
    ensures var k := PortKey(dpid, stat.portNo);
            var rx := RxRate(s.portStats[dpid][stat.portNo], stat, now);
            var w := StrikeOn(s, dpid, k, rx, limits.threshold);
            var num := |ActivePorts(s.portStats[dpid], limits.lower)| - |s.blocklist|;
            && (r.actions != [] <==> k in w && w[k] > STRIKES_TO_BLOCK && rx > FinalThreshold(limits.threshold, num))
            && (r.actions == [] ==> r.state.watchlist == w && r.state.blocklist == s.blocklist)
            && (r.actions != [] ==> r.state.watchlist == w - {k})
  {
    var k := PortKey(dpid, stat.portNo);
    var prev := s.portStats[dpid][stat.portNo];
    var rx := RxRate(prev, stat, now);
    var active := ActivePorts(s.portStats[dpid], limits.lower);
    var num := |active| - |s.blocklist|;
    var counted := s.(watchlist := StrikeOn(s, dpid, k, rx, limits.threshold), activePorts := active, numActivePorts := num);
    var e := Escalate(counted, k, rx, FinalThreshold(limits.threshold, num));
    Step(e.state.(portStats := s.portStats[dpid := Update(s.portStats[dpid], stat, now)]), e.actions)
  }

  lemma ObservePortKeepsInv(s: StrikeState, limits: Limits, dpid: int, stat: PortStat, now: real)
    requires dpid in s.portStats && stat.portNo in s.portStats[dpid]
    requires s.portStats[dpid][stat.portNo].timestamp != now
    requires Inv(s)
    ensures Inv(ObservePort(s, limits, dpid, stat, now).state)
  {
  }

  /** A fast sample on switch 3 for a port with one strike, beating its
      share, blocks it: the second fast sample after the one that first
      watched the port, or the third counting that one. */
  lemma SecondStrikeBlocks(s: StrikeState, limits: Limits, stat: PortStat, now: real)
    requires WATCHED_SWITCH in s.portStats && stat.portNo in s.portStats[WATCHED_SWITCH]
    requires s.portStats[WATCHED_SWITCH][stat.portNo].timestamp != now
    requires Inv(s)
    requires var k := PortKey(WATCHED_SWITCH, stat.portNo); k in s.watchlist && s.watchlist[k] == 1
    requires var rx := RxRate(s.portStats[WATCHED_SWITCH][stat.portNo], stat, now);
             rx > limits.threshold &&
             rx > FinalThreshold(limits.threshold, |ActivePorts(s.portStats[WATCHED_SWITCH], limits.lower)| - |s.blocklist|)
    ensures var k := PortKey(WATCHED_SWITCH, stat.portNo);
            var r := ObservePort(s, limits, WATCHED_SWITCH, stat, now);
            && r.actions == BlockMessages(k)
            && r.state.watchlist == s.watchlist - {k}
            && r.state.blocklist == s.blocklist[k := 0]
  {
  }

  /** The block check does not look at the threshold: a switch-3 port with
      three or more strikes is blocked by a sample below the threshold that
      still beats its share. */
  lemma SlowSampleCanBlock(s: StrikeState, limits: Limits, stat: PortStat, now: real)
    requires WATCHED_SWITCH in s.portStats && stat.portNo in s.portStats[WATCHED_SWITCH]
    requires s.portStats[WATCHED_SWITCH][stat.portNo].timestamp != now
    requires Inv(s)
    requires var k := PortKey(WATCHED_SWITCH, stat.portNo); k in s.watchlist && s.watchlist[k] >= 3
    requires var rx := RxRate(s.portStats[WATCHED_SWITCH][stat.portNo], stat, now);
             rx < limits.threshold &&
             rx > FinalThreshold(limits.threshold, |ActivePorts(s.portStats[WATCHED_SWITCH], limits.lower)| - |s.blocklist|)
    ensures var k := PortKey(WATCHED_SWITCH, stat.portNo);
            var r := ObservePort(s, limits, WATCHED_SWITCH, stat, now);
            && r.actions == BlockMessages(k)
            && r.state.watchlist == s.watchlist - {k}
            && r.state.blocklist == s.blocklist[k := 0]
  {
  }

  /** A rate above the whole link `1.1 * threshold` beats every share. */
  lemma AboveLinkBeatsShare(threshold: real, num: int, rx: real)
    requires threshold >= 1.0 && rx > threshold * 1.1
    ensures rx > threshold && rx > FinalThreshold(threshold, num)
  {
    if num >= 1 { FinalThresholdAtMostLink(threshold, num); }
  }

  /** One fast sample on switch 3, beating every share: a port in neither list
      gets a watch entry, a watched one gains a strike, and nothing is sent
      while the port had fewer than one strike. */
  lemma FastSample(s: StrikeState, limits: Limits, stat: PortStat, now: real)
    requires WATCHED_SWITCH in s.portStats && stat.portNo in s.portStats[WATCHED_SWITCH]
    requires limits.threshold >= 1.0 && FasterThan(s.portStats[WATCHED_SWITCH], stat, now, limits.threshold * 1.1)
    requires Inv(s)
    ensures var k := PortKey(WATCHED_SWITCH, stat.portNo);
            var r := ObservePort(s, limits, WATCHED_SWITCH, stat, now);
            && (k !in s.watchlist && k !in s.blocklist ==> r.actions == [] && k in r.state.watchlist && r.state.watchlist[k] == 0)
            && (k in s.watchlist && s.watchlist[k] == 0 ==> r.actions == [] && k in r.state.watchlist && r.state.watchlist[k] == 1)
            && (k in s.watchlist && s.watchlist[k] == 1 ==> r.actions == BlockMessages(k) && k !in r.state.watchlist && r.state.blocklist == s.blocklist[k := 0])
            && r.state.portStats[WATCHED_SWITCH][stat.portNo].timestamp == now
            && r.state.portStats[WATCHED_SWITCH][stat.portNo].rxBytes == stat.rxBytes
            && Inv(r.state)
  {
    FastRate(s, limits, stat, now);
    var k := PortKey(WATCHED_SWITCH, stat.portNo);
    if k in s.watchlist && s.watchlist[k] == 1 {
      SecondStrikeBlocks(s, limits, stat, now);
    }
    ObservePortKeepsInv(s, limits, WATCHED_SWITCH, stat, now);
  }

  /** A sample faster than the whole link has a rate above the threshold and
      above the port's share. */
  lemma FastRate(s: StrikeState, limits: Limits, stat: PortStat, now: real)
    requires WATCHED_SWITCH in s.portStats && stat.portNo in s.portStats[WATCHED_SWITCH]
    requires limits.threshold >= 1.0 && FasterThan(s.portStats[WATCHED_SWITCH], stat, now, limits.threshold * 1.1)
    ensures var rx := RxRate(s.portStats[WATCHED_SWITCH][stat.portNo], stat, now);
            rx > limits.threshold &&
            rx > FinalThreshold(limits.threshold, |ActivePorts(s.portStats[WATCHED_SWITCH], limits.lower)| - |s.blocklist|)
  {
    var prev := s.portStats[WATCHED_SWITCH][stat.portNo];
    var rx := RxRate(prev, stat, now);
    RateAbove(stat.rxBytes, prev.rxBytes, now - prev.timestamp, limits.threshold * 1.1);
    AboveLinkBeatsShare(limits.threshold, |ActivePorts(s.portStats[WATCHED_SWITCH], limits.lower)| - |s.blocklist|, rx);
  }

  /** Three samples in a row on switch 3, each faster than the whole link,
      for a port already sampled and in neither list: the first two send
      nothing, the third blocks the port. */
  lemma ThreeFastSamplesBlock(s: StrikeState, limits: Limits,
                              stat1: PortStat, now1: real, stat2: PortStat, now2: real, stat3: PortStat, now3: real)
    requires WATCHED_SWITCH in s.portStats && stat1.portNo in s.portStats[WATCHED_SWITCH]
    requires stat2.portNo == stat1.portNo && stat3.portNo == stat1.portNo
    requires var k := PortKey(WATCHED_SWITCH, stat1.portNo); k !in s.watchlist && k !in s.blocklist
    requires Inv(s) && limits.threshold >= 1.0
    requires FasterThan(s.portStats[WATCHED_SWITCH], stat1, now1, limits.threshold * 1.1)
    requires now1 < now2 && (stat2.rxBytes - stat1.rxBytes) as real > limits.threshold * 1.1 * (now2 - now1)
    requires now2 < now3 && (stat3.rxBytes - stat2.rxBytes) as real > limits.threshold * 1.1 * (now3 - now2)
    ensures var o1 := ObservePort(s, limits, WATCHED_SWITCH, stat1, now1);
            var o2 := ObservePort(o1.state, limits, WATCHED_SWITCH, stat2, now2);
            var o3 := ObservePort(o2.state, limits, WATCHED_SWITCH, stat3, now3);
            && o1.actions == [] && o2.actions == []
            && o3.actions == BlockMessages(PortKey(WATCHED_SWITCH, stat1.portNo))
            && PortKey(WATCHED_SWITCH, stat1.portNo) in o3.state.blocklist
  {
    FastSample(s, limits, stat1, now1);
    FastAgain(s, limits, stat1, now1, stat2, now2);
    var o1 := ObservePort(s, limits, WATCHED_SWITCH, stat1, now1);
    FastSample(o1.state, limits, stat2, now2);
    FastAgain(o1.state, limits, stat2, now2, stat3, now3);
    var o2 := ObservePort(o1.state, limits, WATCHED_SWITCH, stat2, now2);
    FastSample(o2.state, limits, stat3, now3);
  }

  /** After a fast sample, a next sample of the same port that is again
      faster than the whole link, measured from this one, is fast too. */
  lemma FastAgain(s: StrikeState, limits: Limits, stat: PortStat, now: real, next: PortStat, later: real)
    requires WATCHED_SWITCH in s.portStats && stat.portNo in s.portStats[WATCHED_SWITCH]
    requires limits.threshold >= 1.0 && FasterThan(s.portStats[WATCHED_SWITCH], stat, now, limits.threshold * 1.1)
    requires Inv(s)
    requires next.portNo == stat.portNo && now < later
    requires (next.rxBytes - stat.rxBytes) as real > limits.threshold * 1.1 * (later - now)
    ensures var o := ObservePort(s, limits, WATCHED_SWITCH, stat, now).state;
            && WATCHED_SWITCH in o.portStats && next.portNo in o.portStats[WATCHED_SWITCH]
            && FasterThan(o.portStats[WATCHED_SWITCH], next, later, limits.threshold * 1.1)
  {
    FastSample(s, limits, stat, now);
  }

  /** One entry of the reply body: reserved ports are skipped, a port seen
      for the first time only gets its baseline, any other is observed. */
  function PortStep(s: StrikeState, limits: Limits, dpid: int, stat: PortStat, now: real): (r: Step<StrikeState>)
    requires dpid in s.portStats
    requires stat.portNo in s.portStats[dpid] ==> s.portStats[dpid][stat.portNo].timestamp != now
    ensures stat.portNo >= OFPP_MAX ==> r == Step(s, [])
    ensures stat.portNo < OFPP_MAX ==> r.state.portStats == s.portStats[dpid := Update(s.portStats[dpid], stat, now)]
    ensures stat.portNo < OFPP_MAX && stat.portNo !in s.portStats[dpid] ==> r.state == s.(portStats := r.state.portStats) && r.actions == []
    ensures stat.portNo < OFPP_MAX && stat.portNo in s.portStats[dpid] ==> r == ObservePort(s, limits, dpid, stat, now)
    ensures r.state.portStats.Keys == s.portStats.Keys
    ensures Before(s.portStats[dpid], now) ==> NotAfter(r.state.portStats[dpid], now)
  {
    if stat.portNo >= OFPP_MAX then Step(s, [])
    else
      UpdateNotAfterIfBefore(s.portStats[dpid], stat, now);
      if stat.portNo !in s.portStats[dpid] then
        Step(s.(portStats := s.portStats[dpid := Update(s.portStats[dpid], stat, now)]), [])
      else ObservePort(s, limits, dpid, stat, now)
  }

  /** The loop over the remaining entries of a reply body. */
  function ReplyFrom(s: StrikeState, limits: Limits, dpid: int, body: seq<PortStat>, clock: seq<real>): (r: Step<StrikeState>)
    requires dpid in s.portStats
    requires |clock| == |body| && ClockFits(s.portStats[dpid], clock)
    ensures r.state.portStats.Keys == s.portStats.Keys
    ensures forall d :: d in s.portStats && d != dpid ==> r.state.portStats[d] == s.portStats[d]
    decreases |body|
  {
    if body == [] then Step(s, [])
    else
      var first := PortStep(s, limits, dpid, body[0], clock[0]);
      ClockFitsTail(s.portStats[dpid], first.state.portStats[dpid], clock);
      var rest := ReplyFrom(first.state, limits, dpid, body[1..], clock[1..]);
      Step(rest.state, first.actions + rest.actions)
  }

  /** `_port_stats_reply_handler`. */
  function PortStatsReply(s: StrikeState, limits: Limits, dpid: int, body: seq<PortStat>, clock: seq<real>): (r: Step<StrikeState>)
    requires |clock| == |body| && ClockFits(SwitchOf(s.portStats, dpid), clock)
    ensures r.state.portStats.Keys == s.portStats.Keys + {dpid}
    ensures forall d :: d in s.portStats && d != dpid ==> r.state.portStats[d] == s.portStats[d]
  {
    ReplyFrom(s.(portStats := SetDefault(s.portStats, dpid)), limits, dpid, body, clock)
  }

  lemma {:induction false} ReplyFromKeepsInv(s: StrikeState, limits: Limits, dpid: int, body: seq<PortStat>, clock: seq<real>)
    requires dpid in s.portStats
    requires |clock| == |body| && ClockFits(s.portStats[dpid], clock)
    requires Inv(s)
    ensures Inv(ReplyFrom(s, limits, dpid, body, clock).state)
    decreases |body|
  {
    if body != [] {
      var first := PortStep(s, limits, dpid, body[0], clock[0]);
      if body[0].portNo < OFPP_MAX && body[0].portNo in s.portStats[dpid] {
        ObservePortKeepsInv(s, limits, dpid, body[0], clock[0]);
      }
      ClockFitsTail(s.portStats[dpid], first.state.portStats[dpid], clock);
      ReplyFromKeepsInv(first.state, limits, dpid, body[1..], clock[1..]);
    }
  }

  /** A whole reply keeps the invariant: in particular no port outside
      switch 3 is ever watched or blocked. */
  lemma PortStatsReplyKeepsInv(s: StrikeState, limits: Limits, dpid: int, body: seq<PortStat>, clock: seq<real>)
    requires |clock| == |body| && ClockFits(SwitchOf(s.portStats, dpid), clock)
    requires Inv(s)
    ensures Inv(PortStatsReply(s, limits, dpid, body, clock).state)
  {
    ReplyFromKeepsInv(s.(portStats := SetDefault(s.portStats, dpid)), limits, dpid, body, clock);
  }

  /** The result of one `_limit_rate` sweep: the new block list and the
      ports whose drop rule is deleted (one `UnblockMessage` each). */
  datatype Release = Release(blocklist: Counts, unblocked: set<PortKey>)

  /** One sweep of `_limit_rate`. */
  function LimitRateSweep(b: Counts): (r: Release)
    ensures forall k :: k in r.unblocked <==> k in b && b[k] > SWEEPS_TO_UNBLOCK
    ensures forall k :: k in r.blocklist <==> k in b && b[k] <= SWEEPS_TO_UNBLOCK
    ensures forall k :: k in r.blocklist ==> r.blocklist[k] == b[k] + 1
  {
    Release(map k | k in b && b[k] <= SWEEPS_TO_UNBLOCK :: b[k] + 1,
            set k | k in b && b[k] > SWEEPS_TO_UNBLOCK)
  }

  /** The mitigation thread applied to the whole state. */
  function LimitRate(s: StrikeState): (r: StrikeState)
    ensures r == s.(blocklist := LimitRateSweep(s.blocklist).blocklist)
    ensures Inv(s) ==> Inv(r)
  {
    s.(blocklist := LimitRateSweep(s.blocklist).blocklist)
  }

  /** `n` sweeps in a row. */
  function Sweeps(b: Counts, n: nat): Counts
    decreases n
  {
    if n == 0 then b else Sweeps(LimitRateSweep(b).blocklist, n - 1)
  }

  /** A block with sweep count `c` is still there after `n` sweeps exactly
      when no sweep saw it above 4, that is when `n == 0` or `c + n <= 5`,
      and its count has grown by `n`. */
  lemma {:induction false} BlockLifetime(b: Counts, n: nat, k: PortKey)
    ensures var r := Sweeps(b, n);
            k in r <==> k in b && (n == 0 || b[k] + n <= SWEEPS_TO_UNBLOCK + 1)
    ensures var r := Sweeps(b, n);
            k in r ==> r[k] == b[k] + n
    decreases n
  {
    if n > 0 {
      var next := LimitRateSweep(b).blocklist;
      BlockLifetime(next, n - 1, k);
    }
  }

  /** A freshly blocked port survives five sweeps and the sixth lifts it. */
  lemma FreshBlockLastsFiveSweeps(b: Counts, k: PortKey)
    requires k in b && b[k] == 0
    ensures k in Sweeps(b, 5) && Sweeps(b, 5)[k] == 5
    ensures k !in Sweeps(b, 6)
  {
    BlockLifetime(b, 5, k);
    BlockLifetime(b, 6, k);
  }
}

=== FILE: controller_withmitigation.dfy ===
/** controller_withmitigation.py: the time-based monitor in which only ports
    listed in `host_info` (host-facing ports, loaded from the topology file)
    may be watched or blocked. */
module ControllerWithMitigation {
  import opened Wrappers
  import opened OpenFlow
  import opened Sampler
  import opened TimedMonitor

  /** `_port_stats_reply_handler` with `threshold = 300000`. */
  function PortStatsReply(s: MonitorState, hostInfo: set<PortKey>, dpid: int, body: seq<PortStat>, clock: seq<real>): (r: Step<MonitorState>)
    requires |clock| == |body| && ClockFits(SwitchOf(s.portStats, dpid), clock)
    ensures WatchInv(s) ==> WatchInv(r.state)
    ensures forall k :: k in s.blocked ==> k in r.state.blocked && r.state.blocked[k] == s.blocked[k]
  {
    var s0 := s.(portStats := SetDefault(s.portStats, dpid));
    assert WatchInv(s) ==> WatchInv(Reply(s, DEFAULT_LIMITS, HostPorts(hostInfo), dpid, body, clock).state) by {
      if WatchInv(s) { ReplyKeepsWatchInv(s, DEFAULT_LIMITS, HostPorts(hostInfo), dpid, body, clock); }
    }
    ReplyFromOnlyAddsBlocks(s0, DEFAULT_LIMITS, HostPorts(hostInfo), dpid, body, clock);
    Reply(s, DEFAULT_LIMITS, HostPorts(hostInfo), dpid, body, clock)
  }

  /** A port missing from `host_info` (a port between switches) that is in
      neither list is never watched nor blocked, whatever traffic it carries. */
  lemma TransitPortNeverWatched(s: MonitorState, hostInfo: set<PortKey>, dpid: int, body: seq<PortStat>, clock: seq<real>, k: PortKey)
    requires |clock| == |body| && ClockFits(SwitchOf(s.portStats, dpid), clock)
    requires k !in hostInfo && k !in s.monitoring && k !in s.blocked
    ensures var r := PortStatsReply(s, hostInfo, dpid, body, clock).state;
            k !in r.monitoring && k !in r.blocked
  {
    ReplyFromNeverTouchesUnadmitted(s.(portStats := SetDefault(s.portStats, dpid)), DEFAULT_LIMITS, HostPorts(hostInfo), dpid, body, clock, k);
  }

  /** A host port with a baseline is blocked by its second consecutive
      above-threshold reply, having been watched after the first. */
  lemma SecondHighReplyBlocksHostPort(s: MonitorState, hostInfo: set<PortKey>, dpid: int,
                                      stat1: PortStat, now1: real, stat2: PortStat, now2: real)
    requires dpid in s.portStats
    requires stat1.portNo == stat2.portNo && stat1.portNo < OFPP_MAX && stat1.portNo in s.portStats[dpid]
    requires var k := PortKey(dpid, stat1.portNo); k !in s.monitoring && k !in s.blocked && k in hostInfo
    requires FasterThan(s.portStats[dpid], stat1, now1, DEFAULT_LIMITS.threshold)
    requires now1 < now2 && (stat2.rxBytes - stat1.rxBytes) as real > DEFAULT_LIMITS.threshold * (now2 - now1)
    ensures var k := PortKey(dpid, stat1.portNo);
            var first := PortStep(s, DEFAULT_LIMITS, HostPorts(hostInfo), dpid, stat1, now1);
            var second := PortStep(first.state, DEFAULT_LIMITS, HostPorts(hostInfo), dpid, stat2, now2);
            && k in first.state.monitoring && k !in first.state.blocked
            && second.state.blocked == first.state.blocked[k := now2] && k !in second.state.monitoring
  {
    TwoHighSamplesBlock(s, DEFAULT_LIMITS, HostPorts(hostInfo), dpid, stat1, now1, stat2, now2);
    var k := PortKey(dpid, stat1.portNo);
    var first := PortStep(s, DEFAULT_LIMITS, HostPorts(hostInfo), dpid, stat1, now1);
    HighSampleBlocks(first.state, DEFAULT_LIMITS, HostPorts(hostInfo), dpid, stat2, now2);
  }

  /** `num_active_ports` subtracts the blocks of every switch from the active
      ports of one switch, so it goes negative: with one block on switch 1, an
      idle port on switch 2 gives -1. */
  lemma NumActivePortsCanBeNegative()
    ensures var s := MonitorState(map[2 := map[1 := Sample(0, 0, 0.0, None)]], [], map[PortKey(1, 1) := 0.0], {}, 0);
            PortStatsReply(s, {}, 2, [PortStat(1, 0, 0)], [1.0]).state.numActivePorts == -1
  {
    var s := MonitorState(map[2 := map[1 := Sample(0, 0, 0.0, None)]], [], map[PortKey(1, 1) := 0.0], {}, 0);
    var stats := Update(s.portStats[2], PortStat(1, 0, 0), 1.0);
    assert RxOf(stats[1]) == 0.0;
    assert ActivePorts(stats, DEFAULT_LIMITS.lower) == {} by {
      forall p | p in ActivePorts(stats, DEFAULT_LIMITS.lower) ensures false { }
    }
  }
}

=== FILE: learning_switch.dfy ===
/** The MAC-learning forwarding decision of the packet-in handler that
    tiprego_nojson.py registers last (the same handler appears in
    controller_withmitigation.py and controller1.py). */
module LearningSwitch {
  import opened Wrappers
  import opened OpenFlow

  /** `mac_to_port[dpid][mac]`: the port a MAC was last seen on. */
  type MacTable = map<int, map<Mac, int>>

  /** The `IndexError` of `get_protocols(ethernet.ethernet)[0]` on a packet
      without an Ethernet header. */
  datatype Fault = NoEthernetHeader

  /** `mac_to_port.get(dpid)` once `setdefault(dpid, {})` has run. */
  function Learned(t: MacTable, dpid: int): map<Mac, int>
  {
    if dpid in t then t[dpid] else map[]
  }

  /** The output port: the learned port of the destination, else flood. */
  function OutPort(known: map<Mac, int>, dst: Mac): int
  {
    if dst in known then known[dst] else OFPP_FLOOD
  }

  /** `_packet_in_handler`: a packet without an Ethernet header raises; LLDP
      frames are dropped without learning; otherwise the source is learned
      on the ingress port and the packet is forwarded to the destination's
      port (installing a priority-1 flow) or flooded. A buffered packet with a
      known destination is handed to the flow install alone; data is attached
      to a PacketOut only when the packet is not buffered. */
  function HandlePacketIn(t: MacTable, pkt: PacketIn): (r: Result<(MacTable, seq<Action>), Fault>)
    ensures r.Failure? <==> pkt.eth.None?
    ensures pkt.eth.Some? && pkt.eth.value.ethertype == ETH_TYPE_LLDP ==> r == Success((t, []))
    ensures pkt.eth.Some? && pkt.eth.value.ethertype != ETH_TYPE_LLDP ==>
              var eth := pkt.eth.value;
              && r.value.0.Keys == t.Keys + {pkt.dpid}
              && r.value.0[pkt.dpid] == Learned(t, pkt.dpid)[eth.src := pkt.inPort]
              && forall d :: d in t && d != pkt.dpid ==> r.value.0[d] == t[d]
    ensures pkt.eth.Some? && pkt.eth.value.ethertype != ETH_TYPE_LLDP ==>
              var eth := pkt.eth.value;
              var out := OutPort(r.value.0[pkt.dpid], eth.dst);
              var flow := AddFlow(pkt.dpid, FORWARD_PRIORITY, InPortEth(pkt.inPort, eth.dst, eth.src), [out],
                                  if pkt.bufferId != OFP_NO_BUFFER then Some(pkt.bufferId) else None);
              var packetOut := PacketOut(pkt.dpid, pkt.bufferId, pkt.inPort, [out],
                                         if pkt.bufferId == OFP_NO_BUFFER then Some(pkt.data) else None);
              && (out == OFPP_FLOOD ==> r.value.1 == [packetOut])
              && (out != OFPP_FLOOD && pkt.bufferId != OFP_NO_BUFFER ==> r.value.1 == [flow])
              && (out != OFPP_FLOOD && pkt.bufferId == OFP_NO_BUFFER ==> r.value.1 == [flow, packetOut])
  {
    if pkt.eth.None? then Failure(NoEthernetHeader)
    else
      var eth := pkt.eth.value;
      if eth.ethertype == ETH_TYPE_LLDP then Success((t, []))
      else
        var known := Learned(t, pkt.dpid)[eth.src := pkt.inPort];
        var t' := t[pkt.dpid := known];
        var out := OutPort(known, eth.dst);
        var rule := InPortEth(pkt.inPort, eth.dst, eth.src);
        var data := if pkt.bufferId == OFP_NO_BUFFER then Some(pkt.data) else None;
        if out != OFPP_FLOOD then
          if pkt.bufferId != OFP_NO_BUFFER then
            Success((t', [AddFlow(pkt.dpid, FORWARD_PRIORITY, rule, [out], Some(pkt.bufferId))]))
          else
            Success((t', [AddFlow(pkt.dpid, FORWARD_PRIORITY, rule, [out], None),
                          PacketOut(pkt.dpid, pkt.bufferId, pkt.inPort, [out], data)]))
        else
          Success((t', [PacketOut(pkt.dpid, pkt.bufferId, pkt.inPort, [out], data)]))
  }

  /** The messages tell the switch what to do with the packet itself: a
      PacketOut, or a FlowMod that names the packet's buffer. */
  predicate Releases(actions: seq<Action>)
  {
    exists i :: 0 <= i < |actions| && (actions[i].PacketOut? || (actions[i].FlowMod? && actions[i].flowBuffer.Some?))
  }

  /** A non-LLDP Ethernet packet is released exactly when its destination is
      unknown or its buffer id is not 0: a buffered packet with id 0 and a
      known destination gets only a FlowMod without a buffer, because 0 is
      falsy in `add_flow`. */
  lemma PacketReleased(t: MacTable, pkt: PacketIn)
    requires pkt.eth.Some? && pkt.eth.value.ethertype != ETH_TYPE_LLDP
    ensures var r := HandlePacketIn(t, pkt);
            var out := OutPort(Learned(t, pkt.dpid)[pkt.eth.value.src := pkt.inPort], pkt.eth.value.dst);
            Releases(r.value.1) <==> out == OFPP_FLOOD || pkt.bufferId != 0
  {
    var r := HandlePacketIn(t, pkt);
    var out := OutPort(Learned(t, pkt.dpid)[pkt.eth.value.src := pkt.inPort], pkt.eth.value.dst);
    if out == OFPP_FLOOD || pkt.bufferId == OFP_NO_BUFFER {
      assert r.value.1[|r.value.1| - 1].PacketOut?;
    } else if pkt.bufferId != 0 {
      assert r.value.1[0].FlowMod? && r.value.1[0].flowBuffer.Some?;
    }
  }

  /** After host A is seen on port p of a switch, an unbuffered non-LLDP
      packet for A on that switch is sent out of p with a flow installed,
      not flooded, provided p is not the flood number itself. */
  lemma LearnedHostIsForwarded(t: MacTable, fromA: PacketIn, toA: PacketIn)
    requires fromA.eth.Some? && toA.eth.Some?
    requires fromA.eth.value.ethertype != ETH_TYPE_LLDP && toA.eth.value.ethertype != ETH_TYPE_LLDP
    requires toA.dpid == fromA.dpid && toA.eth.value.dst == fromA.eth.value.src && toA.eth.value.src != fromA.eth.value.src
    requires fromA.inPort != OFPP_FLOOD && toA.bufferId == OFP_NO_BUFFER
    ensures var t1 := HandlePacketIn(t, fromA).value.0;
            var r := HandlePacketIn(t1, toA);
            r.value.1 == [AddFlow(toA.dpid, FORWARD_PRIORITY, InPortEth(toA.inPort, toA.eth.value.dst, toA.eth.value.src), [fromA.inPort], None),
                          PacketOut(toA.dpid, OFP_NO_BUFFER, toA.inPort, [fromA.inPort], Some(toA.data))]
  {
    var t1 := HandlePacketIn(t, fromA).value.0;
    assert Learned(t1, toA.dpid)[fromA.eth.value.src] == fromA.inPort;
  }

  /** A buffered packet with id 0 whose destination is known gets a single
      FlowMod without a buffer and no PacketOut, so it stays in the switch
      buffer. */
  lemma BufferZeroNotReleased(t: MacTable, pkt: PacketIn)
    requires pkt.eth.Some? && pkt.eth.value.ethertype != ETH_TYPE_LLDP && pkt.bufferId == 0
    requires OutPort(Learned(t, pkt.dpid)[pkt.eth.value.src := pkt.inPort], pkt.eth.value.dst) != OFPP_FLOOD
    ensures var r := HandlePacketIn(t, pkt);
            |r.value.1| == 1 && r.value.1[0].FlowMod? && r.value.1[0].flowBuffer == None
  {
  }
}

=== FILE: lists.dfy ===
/** Python list operations the controllers apply to `monitoring_list`. */
module Lists {

  /** No element occurs twice. */
  predicate NoDup<T(==)>(s: seq<T>)
  {
    forall i, j :: 0 <= i < j < |s| ==> s[i] != s[j]
  }

  /** Position of the first occurrence of `x`. */
  function FirstIndex<T(==)>(s: seq<T>, x: T): (i: nat)
    requires x in s
    ensures i < |s| && s[i] == x
    ensures forall j :: 0 <= j < i ==> s[j] != x
  {
    if s[0] == x then 0
    else
      assert x in s[1..];
      var i := FirstIndex(s[1..], x);
      assert forall j :: 1 <= j <= i ==> s[j] == s[1..][j - 1];
      i + 1
  }

  /** `list.remove(x)`: deletes the first occurrence of `x`. Python raises
      `ValueError` when `x` is absent; every caller tests membership first. */
  function RemoveFirst<T(==)>(s: seq<T>, x: T): (r: seq<T>)
    requires x in s
    ensures |r| == |s| - 1
    ensures multiset(r) == multiset(s) - multiset{x}
    ensures forall y :: y in r ==> y in s
    ensures forall y :: y in s && y != x ==> y in r
    // the copy removed is the first one, and the rest keep their order
    ensures exists i :: 0 <= i < |s| && s[i] == x && x !in s[..i] && r == s[..i] + s[i+1..]
  {
    var i := FirstIndex(s, x);
    assert s == s[..i] + [x] + s[i+1..];
    assert x !in s[..i];
    s[..i] + s[i+1..]
  }

  /** On a duplicate-free list, `remove` takes out every occurrence and
      touches no other element. */
  lemma RemoveFirstNoDup<T>(s: seq<T>, x: T)
    requires x in s && NoDup(s)
    ensures NoDup(RemoveFirst(s, x))
    ensures x !in RemoveFirst(s, x)
  {
    var i := FirstIndex(s, x);
    var r := RemoveFirst(s, x);
    assert r == s[..i] + s[i+1..];
    assert forall j :: 0 <= j < |r| ==> r[j] == s[if j < i then j else j + 1];
    forall a, b | 0 <= a < b < |r|
      ensures r[a] != r[b]
    {
      var a' := if a < i then a else a + 1;
      var b' := if b < i then b else b + 1;
      assert a' < b';
    }
    forall j | 0 <= j < |r|
      ensures r[j] != x
    {
      var j' := if j < i then j else j + 1;
      assert j' != i;
    }
  }

  /** `list.append(x)` of an absent element keeps the list duplicate-free. */
  lemma AppendNoDup<T>(s: seq<T>, x: T)
    requires NoDup(s) && x !in s
    ensures NoDup(s + [x])
  {
    var r := s + [x];
    forall a, b | 0 <= a < b < |r|
      ensures r[a] != r[b]
    {
      if b == |s| { assert r[a] == s[a]; }
    }
  }

  /** A duplicate-free list has as many elements as its set of elements. */
  lemma {:induction false} NoDupCardinality<T>(s: seq<T>)
    requires NoDup(s)
    ensures |set x | x in s| == |s|
  {
    if s != [] {
      var t := s[1..];
      assert NoDup(t) by {
        forall a, b | 0 <= a < b < |t| ensures t[a] != t[b] { assert t[a] == s[a+1] && t[b] == s[b+1]; }
      }
      NoDupCardinality(t);
      assert s[0] !in t by {
        forall j | 0 <= j < |t| ensures t[j] != s[0] { assert t[j] == s[j+1]; }
      }
      assert (set x | x in s) == (set x | x in t) + {s[0]} by {
        assert s == [s[0]] + t;
      }
    }
  }
}

=== FILE: openflow.dfy ===
/** The OpenFlow 1.3 vocabulary the controllers use: reserved numbers from
    the `ofp_port_no` and `ofp_buffer_id` enumerations of the OpenFlow 1.3
    switch specification, the interface key, the per-port counter record of a
    port-stats reply, and an abstract log of the messages a controller sends. */
module OpenFlow {
  import opened Wrappers

  /** Port numbers at or above this value are reserved (`OFPP_MAX`). */
  const OFPP_MAX: int := 0xffff_ff00
  /** Reserved port: every port except the ingress one (`OFPP_FLOOD`). */
  const OFPP_FLOOD: int := 0xffff_fffb
  /** Buffer id meaning "the packet is not buffered on the switch". */
  const OFP_NO_BUFFER: int := 0xffff_ffff
  /** Ethertype of LLDP frames (IEEE 802.1AB). */
  const ETH_TYPE_LLDP: int := 0x88cc

  /** Priority of the drop rule that blocks a port, and of learned forwarding rules. */
  const DROP_PRIORITY: int := 2
  const FORWARD_PRIORITY: int := 1

  type Mac = string
  type Bytes = seq<bv8>

  /** An interface: `(dpid, port_no)`. */
  datatype PortKey = PortKey(dpid: int, port: int)

  /** One entry of a port-stats reply body. */
  datatype PortStat = PortStat(portNo: int, rxBytes: int, txBytes: int)

  /** The matches the controllers build. */
  datatype Match =
    | InPort(inPort: int)
    | InPortEth(inPort: int, ethDst: Mac, ethSrc: Mac)

  /** Messages sent to a switch; `outPorts` lists the output actions, empty
      meaning "drop". */
  datatype Action =
    | FlowMod(dpid: int, priority: int, rule: Match, outPorts: seq<int>, flowBuffer: Option<int>)
    | DeleteFlows(dpid: int, rule: Match)
    | PacketOut(dpid: int, bufferId: int, inPort: int, outPorts: seq<int>, data: Option<Bytes>)

  /** `add_flow`: the buffer id is attached only when it is truthy in Python,
      so both "no buffer id" and buffer id 0 give a FlowMod without one. */
  function AddFlow(dpid: int, priority: int, rule: Match, outPorts: seq<int>, bufferId: Option<int>): (r: Action)
    ensures r.FlowMod? && r.dpid == dpid && r.priority == priority && r.rule == rule && r.outPorts == outPorts
    ensures r.flowBuffer.Some? <==> bufferId.Some? && bufferId.value != 0
    ensures r.flowBuffer.Some? ==> r.flowBuffer == bufferId
  {
    FlowMod(dpid, priority, rule, outPorts,
            if bufferId.Some? && bufferId.value != 0 then bufferId else None)
  }

  /** Buffer id 0 and no buffer id give the same FlowMod. */
  lemma ZeroBufferIsNoBuffer(dpid: int, priority: int, rule: Match, outPorts: seq<int>)
    ensures AddFlow(dpid, priority, rule, outPorts, Some(0)) == AddFlow(dpid, priority, rule, outPorts, None)
  {
  }

  /** A packet arriving on `inPort` from `src` to `dst` is matched by `rule`. */
  predicate Matches(rule: Match, inPort: int, dst: Mac, src: Mac)
  {
    match rule
    case InPort(p) => p == inPort
    case InPortEth(p, d, s) => p == inPort && d == dst && s == src
  }

  /** The messages of `_block_port`: a drop rule (no output actions) that
      matches every packet entering the port, at a priority above the
      learned forwarding flows, then a PacketOut with buffer id 0, no actions
      and no data. */
  function BlockMessages(k: PortKey): (r: seq<Action>)
    ensures |r| == 2
    ensures r[0].FlowMod? && r[0].dpid == k.dpid && r[0].outPorts == [] && r[0].flowBuffer.None?
    ensures forall p, dst, src :: Matches(r[0].rule, p, dst, src) <==> p == k.port
    ensures r[0].priority > FORWARD_PRIORITY
    ensures r[1].PacketOut? && r[1].dpid == k.dpid && r[1].inPort == k.port
    ensures r[1].bufferId == 0 && r[1].outPorts == [] && r[1].data.None?
  {
    [AddFlow(k.dpid, DROP_PRIORITY, InPort(k.port), [], None),
     PacketOut(k.dpid, 0, k.port, [], None)]
  }

  /** A non-strict `OFPFC_DELETE` with `OFPP_ANY` and `OFPG_ANY` removes, on
      its switch, every flow at any priority whose match is at least as
      specific as the delete's: every packet the flow matches, the delete's
      match matches too (section 6.4 of the OpenFlow 1.3 switch
      specification). */
  ghost predicate Deletes(a: Action, f: Action)
  {
    && a.DeleteFlows? && f.FlowMod? && f.dpid == a.dpid
    && forall p, d, s :: Matches(f.rule, p, d, s) ==> Matches(a.rule, p, d, s)
  }

  /** The message of `_unblock_port` (`remove_flow` with match `in_port`):
      a non-strict delete on the same switch with the drop rule's match, so it
      removes exactly the flows all of whose packets enter the port. */
  function UnblockMessage(k: PortKey): (r: Action)
    ensures r.DeleteFlows? && r.dpid == BlockMessages(k)[0].dpid && r.rule == BlockMessages(k)[0].rule
    ensures forall f :: Deletes(r, f) <==>
              f.FlowMod? && f.dpid == k.dpid && forall p, d, s :: Matches(f.rule, p, d, s) ==> p == k.port
  {
    DeleteFlows(k.dpid, InPort(k.port))
  }

  /** Lifting a block deletes the drop rule and, with it, every learned
      forwarding flow for traffic entering that port; a learned flow for
      another ingress port survives. */
  lemma UnblockDeletesPortFlows(k: PortKey, q: int, dst: Mac, src: Mac, outPorts: seq<int>, bufferId: Option<int>)
    ensures Deletes(UnblockMessage(k), BlockMessages(k)[0])
    ensures Deletes(UnblockMessage(k), AddFlow(k.dpid, FORWARD_PRIORITY, InPortEth(q, dst, src), outPorts, bufferId))
            <==> q == k.port
  {
    var f := AddFlow(k.dpid, FORWARD_PRIORITY, InPortEth(q, dst, src), outPorts, bufferId);
    assert Matches(f.rule, q, dst, src);
  }

  /** While a port is blocked, its drop rule shadows every learned flow for
      traffic entering that port: it matches each packet the flow matches and
      has the higher priority. */
  lemma DropShadowsForwarding(k: PortKey, dst: Mac, src: Mac, outPorts: seq<int>, bufferId: Option<int>)
    ensures var f := AddFlow(k.dpid, FORWARD_PRIORITY, InPortEth(k.port, dst, src), outPorts, bufferId);
            var drop := BlockMessages(k)[0];
            && drop.priority > f.priority
            && forall p, d, s :: Matches(f.rule, p, d, s) ==> Matches(drop.rule, p, d, s)
  {
  }

  /** The Ethernet header of a packet-in. */
  datatype EthHeader = EthHeader(dst: Mac, src: Mac, ethertype: int)

  /** A packet-in message: the switch, `match['in_port']`, the buffer id, the
      raw data, and the Ethernet header parsed from it, if there is one. */
  datatype PacketIn = PacketIn(dpid: int, inPort: int, bufferId: int, data: Bytes, eth: Option<EthHeader>)

  /** A handler's new state together with the messages it sent, in order. */
  datatype Step<S> = Step(state: S, actions: seq<Action>)
}

=== FILE: prova.dfy ===
/** prova.py: the time-based monitor without any host gating, so every
    non-reserved port may be watched and blocked. */
module Prova {
  import opened OpenFlow
  import opened Sampler
  import opened TimedMonitor

  /** `_port_stats_reply_handler` with `threshold = 300000` and no gate. */
  function PortStatsReply(s: MonitorState, dpid: int, body: seq<PortStat>, clock: seq<real>): (r: Step<MonitorState>)
    requires |clock| == |body| && ClockFits(SwitchOf(s.portStats, dpid), clock)
    ensures WatchInv(s) ==> WatchInv(r.state)
    ensures forall k :: k in s.blocked ==> k in r.state.blocked && r.state.blocked[k] == s.blocked[k]
  {
    var s0 := s.(portStats := SetDefault(s.portStats, dpid));
    assert WatchInv(s) ==> WatchInv(Reply(s, DEFAULT_LIMITS, AnyPort, dpid, body, clock).state) by {
      if WatchInv(s) { ReplyKeepsWatchInv(s, DEFAULT_LIMITS, AnyPort, dpid, body, clock); }
    }
    ReplyFromOnlyAddsBlocks(s0, DEFAULT_LIMITS, AnyPort, dpid, body, clock);
    Reply(s, DEFAULT_LIMITS, AnyPort, dpid, body, clock)
  }

  /** Any port with a baseline, in neither list, is blocked by its second
      consecutive above-threshold reply, having been watched after the first. */
  lemma SecondHighReplyBlocks(s: MonitorState, dpid: int, stat1: PortStat, now1: real, stat2: PortStat, now2: real)
    requires dpid in s.portStats
    requires stat1.portNo == stat2.portNo && stat1.portNo < OFPP_MAX && stat1.portNo in s.portStats[dpid]
    requires var k := PortKey(dpid, stat1.portNo); k !in s.monitoring && k !in s.blocked
    requires FasterThan(s.portStats[dpid], stat1, now1, DEFAULT_LIMITS.threshold)
    requires now1 < now2 && (stat2.rxBytes - stat1.rxBytes) as real > DEFAULT_LIMITS.threshold * (now2 - now1)
    ensures var k := PortKey(dpid, stat1.portNo);
            var first := PortStep(s, DEFAULT_LIMITS, AnyPort, dpid, stat1, now1);
            var second := PortStep(first.state, DEFAULT_LIMITS, AnyPort, dpid, stat2, now2);
            && k in first.state.monitoring && k !in first.state.blocked
            && second.state.blocked == first.state.blocked[k := now2] && k !in second.state.monitoring
            && second.actions == BlockMessages(k)
  {
    TwoHighSamplesBlock(s, DEFAULT_LIMITS, AnyPort, dpid, stat1, now1, stat2, now2);
    var first := PortStep(s, DEFAULT_LIMITS, AnyPort, dpid, stat1, now1);
    HighSampleBlocks(first.state, DEFAULT_LIMITS, AnyPort, dpid, stat2, now2);
  }
}

=== FILE: sampler.dfy ===
/** The counter sampler shared by every controller: the per-port record kept
    in `port_stats[dpid][port_no]`, the throughput computed between two
    replies, and the set of "active" receiving ports on a switch. */
module Sampler {
  import opened Wrappers
  import opened Lists
  import opened OpenFlow

  /** The two throughput fields, which the code always writes together. */
  datatype Rates = Rates(rx: real, tx: real)

  /** `port_stats[dpid][port_no]`: raw counters and the time they were read;
      `rates` is `None` while the record is only a baseline (the dictionary
      has no `rx_throughput` key yet). */
  datatype Sample = Sample(rxBytes: int, txBytes: int, timestamp: real, rates: Option<Rates>)

  type SwitchStats = map<int, Sample>
  type StatsTable = map<int, SwitchStats>

  /** `stats.get('rx_throughput', 0)`. */
  function RxOf(s: Sample): real
  {
    if s.rates.Some? then s.rates.value.rx else 0.0
  }

  /** `port_stats.get(dpid)` once `setdefault(dpid, {})` has run. */
  function SwitchOf(table: StatsTable, dpid: int): SwitchStats
  {
    if dpid in table then table[dpid] else map[]
  }

  /** `port_stats.setdefault(dpid, {})`. */
  function SetDefault(table: StatsTable, dpid: int): (r: StatsTable)
    ensures dpid in r && r[dpid] == SwitchOf(table, dpid)
    ensures r.Keys == table.Keys + {dpid}
    ensures forall d :: d in table ==> r[d] == table[d]
  {
    if dpid in table then table else table[dpid := map[]]
  }

  /** `(cur - prev) / time_diff`, exact. The code raises on a zero time
      difference and has no other guard: a negative delta or a clock that went
      back gives a negative rate. */
  function Rate(cur: int, prev: int, dt: real): (r: real)
    requires dt != 0.0
    ensures r * dt == (cur - prev) as real
  {
    (cur - prev) as real / dt
  }

  /** The record stored on a port's first reply. */
  function Baseline(stat: PortStat, now: real): Sample
  {
    Sample(stat.rxBytes, stat.txBytes, now, None)
  }

  /** The record stored on every later reply: all five fields overwritten,
      the rates being the counter deltas over the time since `prev`. */
  function Advance(prev: Sample, stat: PortStat, now: real): (r: Sample)
    requires now != prev.timestamp
    ensures r.rxBytes == stat.rxBytes && r.txBytes == stat.txBytes && r.timestamp == now
    ensures r.rates.Some?
    ensures r.rates.value.rx * (now - prev.timestamp) == (stat.rxBytes - prev.rxBytes) as real
    ensures r.rates.value.tx * (now - prev.timestamp) == (stat.txBytes - prev.txBytes) as real
  {
    var dt := now - prev.timestamp;
    Sample(stat.rxBytes, stat.txBytes, now,
           Some(Rates(Rate(stat.rxBytes, prev.rxBytes, dt), Rate(stat.txBytes, prev.txBytes, dt))))
  }

  /** `_update_port_stats` on the table of one switch. */
  function Update(stats: SwitchStats, stat: PortStat, now: real): (r: SwitchStats)
    requires stat.portNo in stats ==> stats[stat.portNo].timestamp != now
    ensures r.Keys == stats.Keys + {stat.portNo}
    ensures forall p :: p in stats && p != stat.portNo ==> r[p] == stats[p]
    ensures stat.portNo !in stats ==>
              r[stat.portNo].rates.None? && r[stat.portNo].timestamp == now &&
              r[stat.portNo].rxBytes == stat.rxBytes && r[stat.portNo].txBytes == stat.txBytes
    ensures stat.portNo in stats ==> r[stat.portNo] == Advance(stats[stat.portNo], stat, now)
  {
    var p := stat.portNo;
    if p !in stats then stats[p := Baseline(stat, now)]
    else stats[p := Advance(stats[p], stat, now)]
  }

  /** Every stored reading is strictly older than `now`. */
  predicate Before(stats: SwitchStats, now: real)
  {
    forall p :: p in stats ==> stats[p].timestamp < now
  }

  /** Every stored reading is no newer than `now`. */
  predicate NotAfter(stats: SwitchStats, now: real)
  {
    forall p :: p in stats ==> stats[p].timestamp <= now
  }

  /** The readings of a reply come from a clock that only moves forward. */
  predicate Increasing(clock: seq<real>)
  {
    forall i, j :: 0 <= i < j < |clock| ==> clock[i] < clock[j]
  }

  /** Sampling at `now` keeps the table no newer than `now`. */
  lemma UpdateNotAfter(stats: SwitchStats, stat: PortStat, now: real)
    requires Before(stats, now)
    ensures NotAfter(Update(stats, stat, now), now)
  {
  }

  /** `active_ports`: the ports of one switch whose stored rx throughput
      (0 for a baseline) exceeds `lower`. */
  function ActivePorts(stats: SwitchStats, lower: real): (r: set<int>)
    ensures r <= stats.Keys
    ensures forall p :: p in stats ==> (p in r <==> RxOf(stats[p]) > lower)
  {
    set p | p in stats && RxOf(stats[p]) > lower
  }

  /** A port that has only a baseline never counts as active, whatever its counters. */
  lemma BaselineNotActive(stats: SwitchStats, p: int, lower: real)
    requires p in stats && stats[p].rates.None? && lower >= 0.0
    ensures p !in ActivePorts(stats, lower)
  {
  }

  /** The list comprehension behind `active_ports`, walking the switch's
      ports in the dictionary's iteration order `order` (any duplicate-free
      listing of its keys): it lists each active port once, in that order,
      and nothing else, so `len(active_ports)` is the size of `ActivePorts`. */
  method ActivePortList(stats: SwitchStats, order: seq<int>, lower: real) returns (ports: seq<int>)
    requires NoDup(order)
    requires forall p :: p in order <==> p in stats
    ensures NoDup(ports)
    ensures forall p :: p in ports <==> p in stats && RxOf(stats[p]) > lower
    ensures |ports| == |ActivePorts(stats, lower)|
    ensures forall i, j :: 0 <= i < j < |ports| ==> FirstIndex(order, ports[i]) < FirstIndex(order, ports[j])
  {
    ports := [];
    var n := 0;
    while n < |order|
      invariant n <= |order|
      invariant NoDup(ports)
      invariant forall p :: p in ports <==> p in order[..n] && RxOf(stats[p]) > lower
      invariant forall i :: 0 <= i < |ports| ==> ports[i] in order
      invariant forall i :: 0 <= i < |ports| ==> FirstIndex(order, ports[i]) < n
      invariant forall i, j :: 0 <= i < j < |ports| ==> FirstIndex(order, ports[i]) < FirstIndex(order, ports[j])
    {
      var p := order[n];
      assert order[..n+1] == order[..n] + [p];
      if RxOf(stats[p]) > lower {
        assert p !in order[..n];
        assert FirstIndex(order, p) == n;
        AppendNoDup(ports, p);
        ports := ports + [p];
      }
      n := n + 1;
    }
    assert order[..n] == order;
    NoDupCardinality(ports);
    var listed := set x | x in ports;
    forall x ensures x in listed <==> x in ActivePorts(stats, lower) { }
    assert listed == ActivePorts(stats, lower);
  }

  /** `threshold` and `lower_threshold`. */
  datatype Limits = Limits(threshold: real, lower: real)

  /** `threshold = 300000`, `lower_threshold = 0.02 * threshold`. */
  const DEFAULT_LIMITS: Limits := Limits(300000.0, 0.02 * 300000.0)

  lemma UpdateNotAfterIfBefore(stats: SwitchStats, stat: PortStat, now: real)
    requires stat.portNo in stats ==> stats[stat.portNo].timestamp != now
    ensures Before(stats, now) ==> NotAfter(Update(stats, stat, now), now)
  {
    if Before(stats, now) { UpdateNotAfter(stats, stat, now); }
  }

  /** The clock readings of a reply suit the samples already stored. */
  predicate ClockFits(stats: SwitchStats, clock: seq<real>)
  {
    Increasing(clock) && (|clock| > 0 ==> Before(stats, clock[0]))
  }

  lemma ClockFitsTail(before: SwitchStats, after: SwitchStats, clock: seq<real>)
    requires |clock| > 0 && ClockFits(before, clock) && NotAfter(after, clock[0])
    ensures ClockFits(after, clock[1..])
  {
  }

  /** A counter that grew by more than `threshold` per unit of elapsed time
      gives a rate above `threshold`. */
  lemma RateAbove(cur: int, prev: int, dt: real, threshold: real)
    requires dt > 0.0 && (cur - prev) as real > threshold * dt
    ensures Rate(cur, prev, dt) > threshold
  {
  }

  /** The port's rx counter in `stat` grew faster than `bound` per unit of
      time since the sample stored for it, taken strictly earlier. */
  predicate FasterThan(stats: SwitchStats, stat: PortStat, now: real, bound: real)
    requires stat.portNo in stats
  {
    var prev := stats[stat.portNo];
    prev.timestamp < now && (stat.rxBytes - prev.rxBytes) as real > bound * (now - prev.timestamp)
  }
}

=== FILE: src_traffic.dfy ===
/** prova.py's per-source packet counters: `src_traffic[(dpid, in_port)]`
    maps a source MAC to the number of packet-ins seen from it on that
    port, and `_get_high_traffic_source` picks the busiest source. The inner
    dictionary is kept as a list of entries in insertion order, because that
    order decides which source `max` returns on a tie. */
module SrcTraffic {
  import opened Wrappers
  import opened Lists
  import opened OpenFlow

  datatype MacCount = MacCount(mac: Mac, packets: nat)

  /** One inner dictionary, in insertion order. */
  type Row = seq<MacCount>

  type Table = map<PortKey, Row>

  /** The keys of a row, in order. */
  function Macs(row: Row): seq<Mac>
  {
    if row == [] then [] else [row[0].mac] + Macs(row[1..])
  }

  /** `row.get(m, 0)`. */
  function PacketsOf(row: Row, m: Mac): nat
  {
    if row == [] then 0 else if row[0].mac == m then row[0].packets else PacketsOf(row[1..], m)
  }

  /** `src_traffic.get(k, {}).get(m, 0)`. */
  function Count(t: Table, k: PortKey, m: Mac): nat
  {
    if k in t then PacketsOf(t[k], m) else 0
  }

  /** A row is a dictionary: no MAC twice. */
  predicate Distinct(row: Row)
  {
    NoDup(Macs(row))
  }

  /** Every row is a dictionary with at least one source in it. */
  predicate WellFormed(t: Table)
  {
    forall k :: k in t ==> Distinct(t[k]) && t[k] != []
  }

  /** `setdefault(src, 0)` then `+= 1` on one row: the source's count goes up
      by one and every other count stays; a known source keeps its place and
      a new one is appended. */
  function Bump(row: Row, src: Mac): (r: Row)
    ensures forall m :: PacketsOf(r, m) == PacketsOf(row, m) + (if m == src then 1 else 0)
    ensures Macs(r) == if src in Macs(row) then Macs(row) else Macs(row) + [src]
    ensures r != []
  {
    if row == [] then [MacCount(src, 1)]
    else if row[0].mac == src then [row[0].(packets := row[0].packets + 1)] + row[1..]
    else
      var rest := Bump(row[1..], src);
      var r := [row[0]] + rest;
      assert r[1..] == rest;
      assert Macs(r) == [row[0].mac] + Macs(rest);
      r
  }

  lemma BumpDistinct(row: Row, src: Mac)
    requires Distinct(row)
    ensures Distinct(Bump(row, src))
  {
    if src !in Macs(row) { AppendNoDup(Macs(row), src); }
  }

  /** `_packet_in_handler` followed by `_handle_packet_out`: every Ethernet
      packet (LLDP included) adds one to the count of its source on its
      ingress port; every packet, Ethernet or not, is flooded with its data
      attached. */
  function HandlePacketIn(t: Table, pkt: PacketIn): (r: (Table, seq<Action>))
    ensures r.1 == [PacketOut(pkt.dpid, pkt.bufferId, pkt.inPort, [OFPP_FLOOD], Some(pkt.data))]
    ensures pkt.eth.None? ==> r.0 == t
    ensures pkt.eth.Some? ==> r.0.Keys == t.Keys + {PortKey(pkt.dpid, pkt.inPort)}
    ensures pkt.eth.Some? ==>
              forall k, m :: Count(r.0, k, m) ==
                Count(t, k, m) + (if k == PortKey(pkt.dpid, pkt.inPort) && m == pkt.eth.value.src then 1 else 0)
    // the ingress port's row keeps its order, a new source going last
    ensures pkt.eth.Some? ==>
              var k := PortKey(pkt.dpid, pkt.inPort);
              var before := if k in t then Macs(t[k]) else [];
              Macs(r.0[k]) == if pkt.eth.value.src in before then before else before + [pkt.eth.value.src]
    // every other port's row is untouched, order included
    ensures pkt.eth.Some? ==> forall k :: k in t && k != PortKey(pkt.dpid, pkt.inPort) ==> r.0[k] == t[k]
    ensures WellFormed(t) ==> WellFormed(r.0)
  {
    var out := [PacketOut(pkt.dpid, pkt.bufferId, pkt.inPort, [OFPP_FLOOD], Some(pkt.data))];
    if pkt.eth.None? then (t, out)
    else
      var k := PortKey(pkt.dpid, pkt.inPort);
      var row := if k in t then t[k] else [];
      assert Distinct(row) ==> Distinct(Bump(row, pkt.eth.value.src)) by {
        if Distinct(row) { BumpDistinct(row, pkt.eth.value.src); }
      }
      (t[k := Bump(row, pkt.eth.value.src)], out)
  }

  /** Index of the first entry with the largest count: the element CPython's
      `max(row, key=row.get)` returns, since it only replaces its candidate
      on a strictly larger key. */
  function FirstMax(row: Row): (i: nat)
    requires row != []
    ensures i < |row|
    ensures forall j :: 0 <= j < |row| ==> row[j].packets <= row[i].packets
    ensures forall j :: 0 <= j < i ==> row[j].packets < row[i].packets
  {
    if |row| == 1 then 0
    else
      var j := FirstMax(row[1..]) + 1;
      assert forall x :: 1 <= x < |row| ==> row[x] == row[1..][x - 1];
      if row[0].packets >= row[j].packets then 0 else j
  }

  /** `_get_high_traffic_source(dpid, port_no)`. */
  function HighTrafficSource(t: Table, k: PortKey): (r: Option<Mac>)
    ensures r.None? <==> k !in t || t[k] == []
    ensures r.Some? ==> exists i :: 0 <= i < |t[k]| && t[k][i].mac == r.value &&
                          (forall j :: 0 <= j < |t[k]| ==> t[k][j].packets <= t[k][i].packets) &&
                          (forall j :: 0 <= j < i ==> t[k][j].packets < t[k][i].packets)
  {
    if k !in t || t[k] == [] then None else Some(t[k][FirstMax(t[k])].mac)
  }

  /** Counters built only by packet-ins: every port that has seen an
      Ethernet packet has a busiest source. */
  function Replay(t: Table, pkts: seq<PacketIn>): (r: Table)
    ensures WellFormed(t) ==> WellFormed(r)
    decreases |pkts|
  {
    if pkts == [] then t else Replay(HandlePacketIn(t, pkts[0]).0, pkts[1..])
  }

  lemma {:induction false} SeenPortHasBusiestSource(pkts: seq<PacketIn>, k: PortKey)
    ensures k in Replay(map[], pkts) ==> HighTrafficSource(Replay(map[], pkts), k).Some?
  {
    var r := Replay(map[], pkts);
    assert WellFormed(map[]);
  }
}

=== FILE: timed_monitor.dfy ===
/** The watch/block state machine with time-based unblocking that
    controller_withmitigation.py and prova.py share: `_update_port_stats`
    followed by `_monitor_port` for each non-reserved port of a stats reply,
    the list effect of `_block_port`, and the expiry loop of
    `_monitor_and_mitigate`. The two files differ only in whether a port must
    be a known host port to be watched or blocked, which is the `EdgeGate`. */
module TimedMonitor {
  import opened Wrappers
  import opened Lists
  import opened OpenFlow
  import opened Sampler

  /** A block is lifted once it is strictly older than this. */
  const BLOCK_DURATION: real := 30.0

  /** Which ports may enter the watch list or be blocked. */
  datatype EdgeGate = AnyPort | HostPorts(hosts: set<PortKey>)
  {
    predicate Admits(k: PortKey)
    {
      AnyPort? || k in hosts
    }
  }

  /** The controller's attributes the core reads and writes:
      `port_stats`, `monitoring_list`, `blocked_ports` (key to block time),
      `active_ports` and `num_active_ports`. */
  datatype MonitorState = MonitorState(
    portStats: StatsTable,
    monitoring: seq<PortKey>,
    blocked: map<PortKey, real>,
    activePorts: set<int>,
    numActivePorts: int)

  /** Every port is in at most one of: neither list, watched once, blocked. */
  predicate WatchInv(s: MonitorState)
  {
    && NoDup(s.monitoring)
    && forall i :: 0 <= i < |s.monitoring| ==> s.monitoring[i] !in s.blocked
  }

  /** The branch `_monitor_port` takes. */
  datatype Verdict = Watch | Block | Unwatch | Stay

  function Classify(watched: bool, blocked: bool, admitted: bool, rx: real, threshold: real): Verdict
  {
    if rx > threshold then
      if !watched && !blocked then (if admitted then Watch else Stay)
      else if watched && !blocked && admitted then Block
      else Stay
    else if rx < threshold then (if watched then Unwatch else Stay)
    else Stay
  }

  /** `active_ports` and `num_active_ports`, from the samples of `dpid` and
      the number of blocked ports on all switches. */
  function Recount(s: MonitorState, dpid: int, lower: real): MonitorState
  {
    var active := ActivePorts(SwitchOf(s.portStats, dpid), lower);
    s.(activePorts := active, numActivePorts := |active| - |s.blocked|)
  }

  /** The effect of a verdict on the lists; `Block` is `blocked_ports[k] = now`
      followed by `_block_port`. */
  function Apply(s: MonitorState, v: Verdict, k: PortKey, now: real): Step<MonitorState>
    requires v == Block || v == Unwatch ==> k in s.monitoring
  {
    match v
    case Watch => Step(s.(monitoring := s.monitoring + [k]), [])
    case Block => Step(s.(blocked := s.blocked[k := now], monitoring := RemoveFirst(s.monitoring, k)), BlockMessages(k))
    case Unwatch => Step(s.(monitoring := RemoveFirst(s.monitoring, k)), [])
    case Stay => Step(s, [])
  }

  /** `_monitor_port(dpid, port)`, run right after the port's sample was stored. */
  function MonitorPort(s: MonitorState, limits: Limits, gate: EdgeGate, dpid: int, port: int, now: real): (r: Step<MonitorState>)
    requires dpid in s.portStats && port in s.portStats[dpid]
    ensures r.state.portStats == s.portStats
    ensures r.state.activePorts == ActivePorts(s.portStats[dpid], limits.lower)
    ensures r.state.numActivePorts == |r.state.activePorts| - |s.blocked|
    // above the threshold, a port in neither list is watched when the gate admits it
    ensures var k := PortKey(dpid, port);
            RxOf(s.portStats[dpid][port]) > limits.threshold && k !in s.monitoring && k !in s.blocked ==>
              && r.state.blocked == s.blocked && r.actions == []
              && r.state.monitoring == (if gate.Admits(k) then s.monitoring + [k] else s.monitoring)
    // above the threshold, a watched admitted port is blocked now and leaves the watch list
    ensures var k := PortKey(dpid, port);
            RxOf(s.portStats[dpid][port]) > limits.threshold && k in s.monitoring && k !in s.blocked && gate.Admits(k) ==>
              && r.state.blocked == s.blocked[k := now]
              && r.state.monitoring == RemoveFirst(s.monitoring, k)
              && r.actions == BlockMessages(k)
    // above the threshold, an already blocked or a watched non-admitted port is left alone
    ensures var k := PortKey(dpid, port);
            RxOf(s.portStats[dpid][port]) > limits.threshold && (k in s.blocked || (k in s.monitoring && !gate.Admits(k))) ==>
              r.state.monitoring == s.monitoring && r.state.blocked == s.blocked && r.actions == []
    // below the threshold, a watched port leaves the watch list
    ensures var k := PortKey(dpid, port);
            RxOf(s.portStats[dpid][port]) < limits.threshold ==>
              && r.state.blocked == s.blocked && r.actions == []
              && r.state.monitoring == (if k in s.monitoring then RemoveFirst(s.monitoring, k) else s.monitoring)
    // exactly at the threshold nothing changes
    ensures RxOf(s.portStats[dpid][port]) == limits.threshold ==>
              r.state.monitoring == s.monitoring && r.state.blocked == s.blocked && r.actions == []
    // no other port changes list
    ensures forall k :: k in r.state.monitoring && k != PortKey(dpid, port) ==> k in s.monitoring
    ensures forall k :: k in s.monitoring && k != PortKey(dpid, port) ==> k in r.state.monitoring
    ensures r.state.blocked.Keys <= s.blocked.Keys + {PortKey(dpid, port)}
    // blocks are only ever added, never moved or lifted, by an observation
    ensures forall k :: k in s.blocked ==> k in r.state.blocked && r.state.blocked[k] == s.blocked[k]
  {
    var k := PortKey(dpid, port);
    var rx := RxOf(s.portStats[dpid][port]);
    var v := Classify(k in s.monitoring, k in s.blocked, gate.Admits(k), rx, limits.threshold);
    Apply(Recount(s, dpid, limits.lower), v, k, now)
  }

  /** `_monitor_port` keeps the watch list duplicate-free and disjoint from the blocks. */
  lemma MonitorPortKeepsWatchInv(s: MonitorState, limits: Limits, gate: EdgeGate, dpid: int, port: int, now: real)
    requires dpid in s.portStats && port in s.portStats[dpid]
    requires WatchInv(s)
    ensures WatchInv(MonitorPort(s, limits, gate, dpid, port, now).state)
  {
    var k := PortKey(dpid, port);
    var r := MonitorPort(s, limits, gate, dpid, port, now).state;
    if k in s.monitoring {
      RemoveFirstNoDup(s.monitoring, k);
    } else {
      AppendNoDup(s.monitoring, k);
    }
    forall i | 0 <= i < |r.monitoring|
      ensures r.monitoring[i] !in r.blocked
    {
      var m := r.monitoring[i];
      if m == k {
        if k in s.monitoring {
          var j :| 0 <= j < |s.monitoring| && s.monitoring[j] == k;
        }
      } else {
        assert m in s.monitoring;
        var j :| 0 <= j < |s.monitoring| && s.monitoring[j] == m;
      }
    }
  }

  /** One entry of the reply body: reserved ports are skipped, otherwise the
      sample is stored and the port is monitored. */
  function PortStep(s: MonitorState, limits: Limits, gate: EdgeGate, dpid: int, stat: PortStat, now: real): (r: Step<MonitorState>)
    requires dpid in s.portStats
    requires stat.portNo in s.portStats[dpid] ==> s.portStats[dpid][stat.portNo].timestamp != now
    ensures stat.portNo >= OFPP_MAX ==> r == Step(s, [])
    ensures stat.portNo < OFPP_MAX ==> r.state.portStats == s.portStats[dpid := Update(s.portStats[dpid], stat, now)]
    ensures stat.portNo < OFPP_MAX ==>
              r == MonitorPort(s.(portStats := s.portStats[dpid := Update(s.portStats[dpid], stat, now)]), limits, gate, dpid, stat.portNo, now)
    ensures r.state.portStats.Keys == s.portStats.Keys
    ensures Before(s.portStats[dpid], now) ==> NotAfter(r.state.portStats[dpid], now)
  {
    if stat.portNo >= OFPP_MAX then Step(s, [])
    else
      UpdateNotAfterIfBefore(s.portStats[dpid], stat, now);
      var stored := s.(portStats := s.portStats[dpid := Update(s.portStats[dpid], stat, now)]);
      MonitorPort(stored, limits, gate, dpid, stat.portNo, now)
  }

  /** The loop over the remaining entries of a reply body; `clock[i]` is the
      time read while handling `body[i]`. */
  function ReplyFrom(s: MonitorState, limits: Limits, gate: EdgeGate, dpid: int, body: seq<PortStat>, clock: seq<real>): (r: Step<MonitorState>)
    requires dpid in s.portStats
    requires |clock| == |body| && ClockFits(s.portStats[dpid], clock)
    ensures r.state.portStats.Keys == s.portStats.Keys
    ensures forall d :: d in s.portStats && d != dpid ==> r.state.portStats[d] == s.portStats[d]
    decreases |body|
  {
    if body == [] then Step(s, [])
    else
      var first := PortStep(s, limits, gate, dpid, body[0], clock[0]);
      ClockFitsTail(s.portStats[dpid], first.state.portStats[dpid], clock);
      var rest := ReplyFrom(first.state, limits, gate, dpid, body[1..], clock[1..]);
      Step(rest.state, first.actions + rest.actions)
  }

  /** `_port_stats_reply_handler`. */
  function Reply(s: MonitorState, limits: Limits, gate: EdgeGate, dpid: int, body: seq<PortStat>, clock: seq<real>): (r: Step<MonitorState>)
    requires |clock| == |body| && ClockFits(SwitchOf(s.portStats, dpid), clock)
    ensures r.state.portStats.Keys == s.portStats.Keys + {dpid}
    ensures forall d :: d in s.portStats && d != dpid ==> r.state.portStats[d] == s.portStats[d]
  {
    ReplyFrom(s.(portStats := SetDefault(s.portStats, dpid)), limits, gate, dpid, body, clock)
  }

  /** A whole reply keeps the watch list duplicate-free and disjoint from the blocks. */
  lemma {:induction false} ReplyFromKeepsWatchInv(s: MonitorState, limits: Limits, gate: EdgeGate, dpid: int, body: seq<PortStat>, clock: seq<real>)
    requires dpid in s.portStats
    requires |clock| == |body| && ClockFits(s.portStats[dpid], clock)
    requires WatchInv(s)
    ensures WatchInv(ReplyFrom(s, limits, gate, dpid, body, clock).state)
    decreases |body|
  {
    if body != [] {
      var stat := body[0];
      var first := PortStep(s, limits, gate, dpid, stat, clock[0]);
      if stat.portNo < OFPP_MAX {
        var stored := s.(portStats := s.portStats[dpid := Update(s.portStats[dpid], stat, clock[0])]);
        MonitorPortKeepsWatchInv(stored, limits, gate, dpid, stat.portNo, clock[0]);
      }
      ClockFitsTail(s.portStats[dpid], first.state.portStats[dpid], clock);
      ReplyFromKeepsWatchInv(first.state, limits, gate, dpid, body[1..], clock[1..]);
    }
  }

  lemma ReplyKeepsWatchInv(s: MonitorState, limits: Limits, gate: EdgeGate, dpid: int, body: seq<PortStat>, clock: seq<real>)
    requires |clock| == |body| && ClockFits(SwitchOf(s.portStats, dpid), clock)
    requires WatchInv(s)
    ensures WatchInv(Reply(s, limits, gate, dpid, body, clock).state)
  {
    ReplyFromKeepsWatchInv(s.(portStats := SetDefault(s.portStats, dpid)), limits, gate, dpid, body, clock);
  }

  /** A reply only adds blocks: every block already present keeps its time. */
  lemma {:induction false} ReplyFromOnlyAddsBlocks(s: MonitorState, limits: Limits, gate: EdgeGate, dpid: int, body: seq<PortStat>, clock: seq<real>)
    requires dpid in s.portStats
    requires |clock| == |body| && ClockFits(s.portStats[dpid], clock)
    ensures var r := ReplyFrom(s, limits, gate, dpid, body, clock).state;
            forall k :: k in s.blocked ==> k in r.blocked && r.blocked[k] == s.blocked[k]
    decreases |body|
  {
    if body != [] {
      var first := PortStep(s, limits, gate, dpid, body[0], clock[0]);
      ClockFitsTail(s.portStats[dpid], first.state.portStats[dpid], clock);
      ReplyFromOnlyAddsBlocks(first.state, limits, gate, dpid, body[1..], clock[1..]);
    }
  }

  /** A port the gate does not admit, in neither list before a reply, is in
      neither list after it, whatever its throughput. */
  lemma {:induction false} ReplyFromNeverTouchesUnadmitted(s: MonitorState, limits: Limits, gate: EdgeGate, dpid: int, body: seq<PortStat>, clock: seq<real>, k: PortKey)
    requires dpid in s.portStats
    requires |clock| == |body| && ClockFits(s.portStats[dpid], clock)
    requires !gate.Admits(k) && k !in s.monitoring && k !in s.blocked
    ensures var r := ReplyFrom(s, limits, gate, dpid, body, clock).state;
            k !in r.monitoring && k !in r.blocked
    decreases |body|
  {
    if body != [] {
      var first := PortStep(s, limits, gate, dpid, body[0], clock[0]);
      assert k !in first.state.monitoring && k !in first.state.blocked;
      ClockFitsTail(s.portStats[dpid], first.state.portStats[dpid], clock);
      ReplyFromNeverTouchesUnadmitted(first.state, limits, gate, dpid, body[1..], clock[1..], k);
    }
  }

  /** A reply whose entries are all reserved ports leaves the state as it
      was and sends nothing. */
  lemma {:induction false} ReplyFromSkipsReserved(s: MonitorState, limits: Limits, gate: EdgeGate, dpid: int, body: seq<PortStat>, clock: seq<real>)
    requires dpid in s.portStats
    requires |clock| == |body| && ClockFits(s.portStats[dpid], clock)
    requires forall i :: 0 <= i < |body| ==> body[i].portNo >= OFPP_MAX
    ensures ReplyFrom(s, limits, gate, dpid, body, clock) == Step(s, [])
    decreases |body|
  {
    if body != [] {
      ClockFitsTail(s.portStats[dpid], s.portStats[dpid], clock);
      ReplyFromSkipsReserved(s, limits, gate, dpid, body[1..], clock[1..]);
    }
  }

  /** A high reply for an admitted port in neither list appends it to the watch list. */
  lemma HighSampleWatches(s: MonitorState, limits: Limits, gate: EdgeGate, dpid: int, stat: PortStat, now: real)
    requires dpid in s.portStats && stat.portNo < OFPP_MAX && stat.portNo in s.portStats[dpid]
    requires FasterThan(s.portStats[dpid], stat, now, limits.threshold)
    requires var k := PortKey(dpid, stat.portNo); k !in s.monitoring && k !in s.blocked && gate.Admits(k)
    ensures var r := PortStep(s, limits, gate, dpid, stat, now);
            && r.state.monitoring == s.monitoring + [PortKey(dpid, stat.portNo)]
            && r.state.blocked == s.blocked && r.actions == []
            && r.state.portStats[dpid][stat.portNo].timestamp == now
            && r.state.portStats[dpid][stat.portNo].rxBytes == stat.rxBytes
  {
    var prev := s.portStats[dpid][stat.portNo];
    RateAbove(stat.rxBytes, prev.rxBytes, now - prev.timestamp, limits.threshold);
  }

  /** A high reply for a watched, unblocked, admitted port blocks it now. */
  lemma HighSampleBlocks(s: MonitorState, limits: Limits, gate: EdgeGate, dpid: int, stat: PortStat, now: real)
    requires dpid in s.portStats && stat.portNo < OFPP_MAX && stat.portNo in s.portStats[dpid]
    requires FasterThan(s.portStats[dpid], stat, now, limits.threshold)
    requires var k := PortKey(dpid, stat.portNo); k in s.monitoring && k !in s.blocked && gate.Admits(k)
    ensures var k := PortKey(dpid, stat.portNo);
            var r := PortStep(s, limits, gate, dpid, stat, now);
            && r.state.blocked == s.blocked[k := now]
            && r.state.monitoring == RemoveFirst(s.monitoring, k)
            && r.actions == BlockMessages(k)
  {
    var prev := s.portStats[dpid][stat.portNo];
    RateAbove(stat.rxBytes, prev.rxBytes, now - prev.timestamp, limits.threshold);
  }

  /** Two consecutive replies above the threshold for an admitted port in
      neither list: the first puts it on the watch list, the second blocks
      it with the second reply's time and takes it off the watch list. */
  lemma TwoHighSamplesBlock(s: MonitorState, limits: Limits, gate: EdgeGate, dpid: int,
                            stat1: PortStat, now1: real, stat2: PortStat, now2: real)
    requires dpid in s.portStats
    requires stat1.portNo == stat2.portNo && stat1.portNo < OFPP_MAX && stat1.portNo in s.portStats[dpid]
    requires var k := PortKey(dpid, stat1.portNo);
             k !in s.monitoring && k !in s.blocked && gate.Admits(k)
    requires FasterThan(s.portStats[dpid], stat1, now1, limits.threshold)
    requires now1 < now2 && (stat2.rxBytes - stat1.rxBytes) as real > limits.threshold * (now2 - now1)
    ensures var k := PortKey(dpid, stat1.portNo);
            var first := PortStep(s, limits, gate, dpid, stat1, now1);
            k in first.state.monitoring && k !in first.state.blocked && first.actions == []
    ensures var k := PortKey(dpid, stat1.portNo);
            var first := PortStep(s, limits, gate, dpid, stat1, now1);
            var second := PortStep(first.state, limits, gate, dpid, stat2, now2);
            && k in second.state.blocked && second.state.blocked[k] == now2
            && k !in second.state.monitoring
            && second.actions == BlockMessages(k)
  {
    var k := PortKey(dpid, stat1.portNo);
    HighSampleWatches(s, limits, gate, dpid, stat1, now1);
    var first := PortStep(s, limits, gate, dpid, stat1, now1);
    assert FasterThan(first.state.portStats[dpid], stat2, now2, limits.threshold);
    HighSampleBlocks(first.state, limits, gate, dpid, stat2, now2);
    var second := PortStep(first.state, limits, gate, dpid, stat2, now2);
    assert multiset(first.state.monitoring)[k] == 1 by {
      assert multiset(s.monitoring)[k] == 0;
    }
    assert multiset(second.state.monitoring)[k] == 0;
  }

  /** The result of one expiry sweep: the new state and the ports whose drop
      rule is deleted (one `UnblockMessage` each). */
  datatype Sweep = Sweep(state: MonitorState, unblocked: set<PortKey>)

  /** A block taken at `blockedAt` has expired at `now`. */
  predicate Expired(blockedAt: real, now: real)
  {
    now - blockedAt > BLOCK_DURATION
  }

  /** The mitigation part of one `_monitor_and_mitigate` iteration. */
  function SweepExpired(s: MonitorState, now: real): (r: Sweep)
    ensures r.state == s.(blocked := r.state.blocked)
    ensures forall k :: k in r.unblocked <==> k in s.blocked && Expired(s.blocked[k], now)
    ensures forall k :: k in r.state.blocked <==> k in s.blocked && !Expired(s.blocked[k], now)
    ensures forall k :: k in r.state.blocked ==> r.state.blocked[k] == s.blocked[k]
    ensures WatchInv(s) ==> WatchInv(r.state)
  {
    var gone := set k | k in s.blocked && Expired(s.blocked[k], now);
    Sweep(s.(blocked := map k | k in s.blocked && !Expired(s.blocked[k], now) :: s.blocked[k]), gone)
  }

  /** Successive sweeps at the given times. */
  function Sweeps(s: MonitorState, times: seq<real>): MonitorState
    decreases |times|
  {
    if times == [] then s else Sweeps(SweepExpired(s, times[0]).state, times[1..])
  }

  /** A block survives a series of sweeps exactly when none of them comes
      more than `BLOCK_DURATION` after it was taken, and keeps its time. */
  lemma {:induction false} BlockLifetime(s: MonitorState, times: seq<real>, k: PortKey)
    ensures var r := Sweeps(s, times);
            k in r.blocked <==> k in s.blocked && forall i :: 0 <= i < |times| ==> !Expired(s.blocked[k], times[i])
    ensures var r := Sweeps(s, times);
            k in r.blocked ==> r.blocked[k] == s.blocked[k]
    decreases |times|
  {
    if times != [] {
      var next := SweepExpired(s, times[0]).state;
      BlockLifetime(next, times[1..], k);
      if k in s.blocked && !Expired(s.blocked[k], times[0]) {
        assert next.blocked[k] == s.blocked[k];
        forall i | 1 <= i < |times| ensures times[i] == times[1..][i - 1] { }
      }
    }
  }
}

=== FILE: tiprego_nojson.dfy ===
/** tiprego_nojson.py: the time-based monitor fed by a topology collaborator.
    `host_add_handler` keys `host_info` by host MAC, while `_monitor_port`
    looks a `(dpid, port_no)` tuple up among those keys; the block branch calls
    a `_block_port` the class does not define, and there is no expiry sweep.
    The thresholds and the monitor's tables are never initialised by the
    class, so they are parameters here. */
module TipregoNoJson {
  import opened Wrappers
  import opened Lists
  import opened OpenFlow
  import opened Sampler
  import opened TimedMonitor

  /** A key of `host_info`: Python lets the dictionary hold MAC strings and
      tuples alike, and a MAC never equals a tuple. */
  datatype InfoKey = MacKey(mac: Mac) | TupleKey(key: PortKey)

  type HostInfo = map<InfoKey, PortKey>

  /** Only `host_add_handler` has filled the dictionary. */
  predicate MacKeyed(info: HostInfo)
  {
    forall key :: key in info ==> key.MacKey?
  }

  /** `host_add_handler`: `host_info[host.mac] = (dpid, port_no)`. */
  function HostAdd(info: HostInfo, mac: Mac, dpid: int, port: int): (r: HostInfo)
    ensures r.Keys == info.Keys + {MacKey(mac)}
    ensures r[MacKey(mac)] == PortKey(dpid, port)
    ensures forall key :: key in info && key != MacKey(mac) ==> r[key] == info[key]
    ensures MacKeyed(info) ==> MacKeyed(r)
  {
    info[MacKey(mac) := PortKey(dpid, port)]
  }

  /** The `AttributeError` raised by calling the undefined `_block_port`. */
  datatype Fault = UndefinedBlockPort

  /** `_monitor_port(dpid, port)`: the gate is `(dpid, port_no) in host_info`. */
  function MonitorPort(s: MonitorState, limits: Limits, info: HostInfo, dpid: int, port: int, now: real): (r: Result<MonitorState, Fault>)
    requires dpid in s.portStats && port in s.portStats[dpid]
    ensures var k := PortKey(dpid, port);
            r.Failure? <==> RxOf(s.portStats[dpid][port]) > limits.threshold && k in s.monitoring && k !in s.blocked && TupleKey(k) in info
    ensures r.Success? ==>
              && r.value.portStats == s.portStats && r.value.blocked == s.blocked
              && r.value.activePorts == ActivePorts(s.portStats[dpid], limits.lower)
              && r.value.numActivePorts == |r.value.activePorts| - |s.blocked|
    ensures var k := PortKey(dpid, port);
            var rx := RxOf(s.portStats[dpid][port]);
            r.Success? ==>
              r.value.monitoring ==
                if rx > limits.threshold && k !in s.monitoring && k !in s.blocked && TupleKey(k) in info then s.monitoring + [k]
                else if rx < limits.threshold && k in s.monitoring then RemoveFirst(s.monitoring, k)
                else s.monitoring
  {
    var k := PortKey(dpid, port);
    var v := Classify(k in s.monitoring, k in s.blocked, TupleKey(k) in info, RxOf(s.portStats[dpid][port]), limits.threshold);
    if v == Block then Failure(UndefinedBlockPort)
    else Success(Apply(Recount(s, dpid, limits.lower), v, k, now).state)
  }

  /** One entry of a reply body. */
  function PortStep(s: MonitorState, limits: Limits, info: HostInfo, dpid: int, stat: PortStat, now: real): (r: Result<MonitorState, Fault>)
    requires dpid in s.portStats
    requires stat.portNo in s.portStats[dpid] ==> s.portStats[dpid][stat.portNo].timestamp != now
    ensures stat.portNo >= OFPP_MAX ==> r == Success(s)
    ensures r.Success? && stat.portNo < OFPP_MAX ==> r.value.portStats == s.portStats[dpid := Update(s.portStats[dpid], stat, now)]
    ensures stat.portNo < OFPP_MAX ==>
              r == MonitorPort(s.(portStats := s.portStats[dpid := Update(s.portStats[dpid], stat, now)]), limits, info, dpid, stat.portNo, now)
    ensures r.Success? ==> r.value.portStats.Keys == s.portStats.Keys
    ensures r.Success? && Before(s.portStats[dpid], now) ==> NotAfter(r.value.portStats[dpid], now)
  {
    if stat.portNo >= OFPP_MAX then Success(s)
    else
      UpdateNotAfterIfBefore(s.portStats[dpid], stat, now);
      var stored := s.(portStats := s.portStats[dpid := Update(s.portStats[dpid], stat, now)]);
      MonitorPort(stored, limits, info, dpid, stat.portNo, now)
  }

  /** The loop over the remaining entries of a reply; the first fault ends it. */
  function ReplyFrom(s: MonitorState, limits: Limits, info: HostInfo, dpid: int, body: seq<PortStat>, clock: seq<real>): (r: Result<MonitorState, Fault>)
    requires dpid in s.portStats
    requires |clock| == |body| && ClockFits(s.portStats[dpid], clock)
    ensures r.Success? ==> r.value.portStats.Keys == s.portStats.Keys
    ensures r.Success? ==> forall d :: d in s.portStats && d != dpid ==> r.value.portStats[d] == s.portStats[d]
    // the first failing entry ends the loop with its fault
    ensures body != [] && PortStep(s, limits, info, dpid, body[0], clock[0]).Failure? ==>
              r == PortStep(s, limits, info, dpid, body[0], clock[0])
    // only a non-reserved entry can fail
    ensures r.Failure? ==> exists i :: 0 <= i < |body| && body[i].portNo < OFPP_MAX
    decreases |body|
  {
    if body == [] then Success(s)
    else
      var first := PortStep(s, limits, info, dpid, body[0], clock[0]);
      if first.Failure? then first
      else
        ClockFitsTail(s.portStats[dpid], first.value.portStats[dpid], clock);
        ReplyFrom(first.value, limits, info, dpid, body[1..], clock[1..])
  }

  /** `_port_stats_reply_handler`. */
  function PortStatsReply(s: MonitorState, limits: Limits, info: HostInfo, dpid: int, body: seq<PortStat>, clock: seq<real>): (r: Result<MonitorState, Fault>)
    requires |clock| == |body| && ClockFits(SwitchOf(s.portStats, dpid), clock)
    ensures r.Success? ==> r.value.portStats.Keys == s.portStats.Keys + {dpid}
    ensures r.Success? ==> forall d :: d in s.portStats && d != dpid ==> r.value.portStats[d] == s.portStats[d]
  {
    ReplyFrom(s.(portStats := SetDefault(s.portStats, dpid)), limits, info, dpid, body, clock)
  }

  /** With `host_info` filled only by `host_add_handler`, no port ever enters
      `monitoring_list`: a reply on an empty watch list never raises, leaves
      the list empty and the blocks as they were. */
  lemma {:induction false} MacKeyedNeverWatchesFrom(s: MonitorState, limits: Limits, info: HostInfo, dpid: int, body: seq<PortStat>, clock: seq<real>)
    requires dpid in s.portStats
    requires |clock| == |body| && ClockFits(s.portStats[dpid], clock)
    requires MacKeyed(info) && s.monitoring == []
    ensures var r := ReplyFrom(s, limits, info, dpid, body, clock);
            r.Success? && r.value.monitoring == [] && r.value.blocked == s.blocked
    decreases |body|
  {
    if body != [] {
      var first := PortStep(s, limits, info, dpid, body[0], clock[0]);
      assert TupleKey(PortKey(dpid, body[0].portNo)) !in info;
      assert first.Success? && first.value.monitoring == [] && first.value.blocked == s.blocked;
      ClockFitsTail(s.portStats[dpid], first.value.portStats[dpid], clock);
      MacKeyedNeverWatchesFrom(first.value, limits, info, dpid, body[1..], clock[1..]);
    }
  }

  lemma MacKeyedNeverWatches(s: MonitorState, limits: Limits, info: HostInfo, dpid: int, body: seq<PortStat>, clock: seq<real>)
    requires |clock| == |body| && ClockFits(SwitchOf(s.portStats, dpid), clock)
    requires MacKeyed(info) && s.monitoring == []
    ensures var r := PortStatsReply(s, limits, info, dpid, body, clock);
            r.Success? && r.value.monitoring == [] && r.value.blocked == s.blocked
  {
    MacKeyedNeverWatchesFrom(s.(portStats := SetDefault(s.portStats, dpid)), limits, info, dpid, body, clock);
  }

  /** A host-discovery event. */
  datatype HostEvent = HostEvent(mac: Mac, dpid: int, port: int)

  /** `host_info` after a series of `host_add_handler` calls. */
  function HostAdds(info: HostInfo, events: seq<HostEvent>): (r: HostInfo)
    decreases |events|
  {
    if events == [] then info
    else HostAdds(HostAdd(info, events[0].mac, events[0].dpid, events[0].port), events[1..])
  }

  /** Starting from the empty dictionary, host discovery alone only ever
      produces MAC keys. */
  lemma {:induction false} HostAddsMacKeyed(info: HostInfo, events: seq<HostEvent>)
    requires MacKeyed(info)
    ensures MacKeyed(HostAdds(info, events))
    decreases |events|
  {
    if events != [] {
      HostAddsMacKeyed(HostAdd(info, events[0].mac, events[0].dpid, events[0].port), events[1..]);
    }
  }
}

=== FILE: wrappers.dfy ===
/** Option and Result, the two failure-carrying datatypes the model uses for
    Python's `None` and for the exceptions a handler can raise. */
module Wrappers {

  datatype Option<+T> = None | Some(value: T)

  datatype Result<+T, +E> = Success(value: T) | Failure(error: E)
}
